=== FILE: README.md ===
# Accessible colour selection, TTL cache and gradient helpers, in Dafny

This project models the pure core of a banner generator. It has four parts:

- **Contrast engine** (`src/utils/colorContrast.ts`):
  - hex parsing;
  - WCAG 2.1 relative luminance and contrast ratio;
  - the AA/AAA thresholds of success criteria 1.4.3 and 1.4.6;
  - the "dominant colour" of a CSS gradient string;
  - the white-or-black text chooser.
- **Smart colour selection** (`src/utils/smartColorSelection.ts`):
  - the CTA colour search and the text/heading colour search over fixed palettes;
  - the four-clause validator;
  - best-of-N generation with a fast-remix table as fallback;
  - the CTA-only variation.
- **TTL cache** (`src/utils/cache.ts`):
  - `set`/`get`/`has`/`delete`/`clear`/`cleanup`/`getStats`;
  - `memoize`.
- **Gradient helpers** (`src/utils/gradients.ts`):
  - a gamma-free luminance;
  - the dark/light test;
  - the random pick;
  - the CSS background string.

Modules:

| file | module | contents |
|---|---|---|
| `options.dfy` | `Options` | `Option` (JavaScript's `null` is `None`) |
| `js_text.dfy` | `JsText` | the JavaScript string/number behaviour the code relies on: regular-expression character classes, `replace` with a string pattern, `substr`, `parseInt`, `toString(16)`, `padStart` |
| `selection.dfy` | `Selection` | the loop shapes the selection code repeats: leftmost search, strict-improvement best-of scan, stable descending sort, `filter`, and `Math.floor(Math.random() * n)` |
| `color_contrast.dfy` | `ColorContrast` | the contrast engine |
| `color_data.dfy` | `ColorData` | `ColorSet` and the static tables: 71 gradients, three CTA palettes, seven text tones, 20 fast-remix sets |
| `smart_color_selection.dfy` | `SmartColorSelection` | the colour-set generator |
| `cache.dfy` | `TtlCache` | the cache as a value, with the clock passed in |
| `gradients.dfy` | `Gradients` | the gradient helpers |

Modelling choices:

- **Gamma.** The gamma step `((c + 0.055) / 1.055)^2.4` is a parameter `curve: PowerCurve`. A `PowerCurve` is any function that maps [0, 1] into [0, 1], is monotone, and fixes 1, as t^2.4 does. Every luminance-dependent operation takes the curve. So every proved fact holds for the real exponent and does not depend on floating-point values.
- **Randomness.** Each `Math.random()` value is a `RandomDraw`, a real in [0, 1). The best-of-N search takes an oracle `draws: nat -> RandomDraw`: attempt `i` uses `draws(i)`, and the fallback uses the next draw.
- **Cache clock.** Each cache operation takes the time `now` and returns the new store along with its answer.

Facts proved along the way:

- The better of white and black always has contrast of at least 4.5 against any colour, because the two ratios multiply to 21. It follows that:
  - the white/black fallback at the end of `selectOptimalTextColor` can never be reached;
  - text and heading colours always reach 4.5;
  - the validator's fourth clause always holds;
  - a generated colour set is valid exactly when its CTA colour reaches 2.5 against the background.

Where the code and its own comments say different things, the model follows the code:

- An unparsable colour has luminance 0, the luminance of black (colorContrast.ts:48).
- The dominant colour of a gradient is the first `#RRGGBB` anywhere in the string, else the first `rgb()`/`rgba()` triple, else `#808080`. The comment at colorContrast.ts:116 says it "takes the first color in the gradient"; that holds when the first colour is `#RRGGBB`, or is an `rgb()`/`rgba()` triple and no `#RRGGBB` appears anywhere in the string.
- The fast-remix table is called pre-computed and pre-validated (smartColorSelection.ts:287, 455), but no code checks it. The model therefore makes no claim that a fallback set passes the validator.

## Model

| member | source | states |
|---|---|---|
| JsText.RemoveFirst | src/utils/colorContrast.ts:24 | `replace('#', '')` removes only the first `#`: the result is the text before the first occurrence followed by the text after it, or the input unchanged when there is none |
| JsText.ParseIntHex | src/utils/gradients.ts:17-19 | `parseInt(…, 16)` is NaN exactly when no hex digit follows the leading white space, sign and `0x` prefix |
| JsText.ParseIntHexPair | src/utils/colorContrast.ts:33-35 | a two-hex-digit group parses to its byte value |
| JsText.ParseIntHexShort | src/utils/gradients.ts:17-19 | an empty group is NaN; a single digit parses to its value |
| JsText.NatToHex | src/utils/colorContrast.ts:133 | `n.toString(16)` writes a non-empty run of hex digits, none of them upper case, a single digit exactly below 16 |
| JsText.ByteHexRoundTrip | src/utils/colorContrast.ts:133 | `n.toString(16).padStart(2, '0')` writes exactly two hex digits, none of them upper case, that read back as `n` for every byte |
| JsText.DecimalRoundTrip | src/utils/colorContrast.ts:129-131 | `parseInt` in base 10 reads the decimal text of `n` back as `n` |
| JsText.SkipWhileRun | src/utils/colorContrast.ts:126 | a greedy `\s*` or `\d+` stops exactly where the run of matching characters ends |
| JsText.Substr | src/utils/gradients.ts:17-19 | `substr` takes the requested slice when it fits; when it runs past the end it takes everything from `start` on; from at or beyond the end it is empty |
| Selection.StrictBest | src/utils/smartColorSelection.ts:118-128 | the scan "update when eligible and score > best, starting from 0" finds nothing exactly when no eligible entry scores above 0; otherwise it finds the first entry of maximal score |
| Selection.SortDesc | src/utils/smartColorSelection.ts:173 | the sort by descending contrast is a permutation and is sorted |
| Selection.InsertKeepsSorted | src/utils/smartColorSelection.ts:173 | inserting into a descending list after its equal elements keeps it descending |
| Selection.SortHeadIsFirstMax | src/utils/smartColorSelection.ts:173 | the head of the stable sort is the earliest element of maximal score |
| Selection.FirstAtLeastInSorted | src/utils/smartColorSelection.ts:176-180 | in a descending list the first element meeting a bar is the head, or there is none |
| Selection.FirstMaxUnique | src/utils/smartColorSelection.ts:118-128 | the first maximum is unique |
| Selection.RandomIndex | src/utils/smartColorSelection.ts:191 | `Math.floor(Math.random() * n)` is a valid index |
| Selection.Without | src/utils/smartColorSelection.ts:475 | `filter(color => color !== x)` keeps every element different from `x`, drops `x`, and adds nothing; as a multiset the result is the input with every `x` removed |
| Selection.WithoutSingleton | src/utils/smartColorSelection.ts:475 | filtering a one-element list keeps the element exactly when it differs from `x` |
| Selection.WithoutConcat | src/utils/smartColorSelection.ts:475 | filtering distributes over concatenation, so the kept elements stay in their original order |
| Selection.WithoutOfTwoDistinct | src/utils/smartColorSelection.ts:470-475 | filtering one value out of a list that holds two distinct values leaves at least one element |
| Selection.WithoutHead | src/utils/smartColorSelection.ts:475-477 | the filtered list starts with the first element different from `x` |
| ColorContrast.HexToRgb | src/utils/colorContrast.ts:22-37 | a parsed colour has every channel in [0, 255] |
| ColorContrast.HexToRgbAccepts | src/utils/colorContrast.ts:22-37 | `hexToRgb` returns a colour exactly when, after removing the first `#`, three or six hex digits of either case remain |
| ColorContrast.HexToRgbShorthand | src/utils/colorContrast.ts:27-29 | `#abc` is read as `#aabbcc`, so each channel is 17 times its digit |
| ColorContrast.HashIsOptional | src/utils/colorContrast.ts:24 | a leading `#` does not change the result when the rest holds no other `#` |
| ColorContrast.TwoHashesRejected | src/utils/colorContrast.ts:24-31 | a text with two `#` is never a colour, since only the first is removed |
| ColorContrast.ShorthandWhiteExample | src/utils/colorContrast.ts:27-36 | `#fff` is (255, 255, 255) |
| ColorContrast.NonHexExample | src/utils/colorContrast.ts:31-36 | `zzzzzz` is null |
| ColorContrast.SixDigitsParse | src/utils/colorContrast.ts:31-36 | each channel of `#RRGGBB` is the base-16 value of its two-digit group |
| ColorContrast.FormatHexRoundTrip | src/utils/colorContrast.ts:133 | formatting a byte triple as hex and parsing it back gives the same triple |
| ColorContrast.HexPairsParse | src/utils/colorContrast.ts:31-36 | `#` followed by three two-digit hex groups parses to the three byte values of the groups |
| ColorContrast.CalculateLuminance | src/utils/colorContrast.ts:43-66 | luminance lies in [0, 1], and is exactly 0 for an unparsable string |
| ColorContrast.RgbLuminance | src/utils/colorContrast.ts:55-65 | for byte channels the weighted sum lies in [0, 1], because the weights sum to 1 and each linearised channel does |
| ColorContrast.Linearize | src/utils/colorContrast.ts:60-62 | the piecewise gamma step maps [0, 1] into [0, 1] |
| ColorContrast.WhiteAndBlackLuminance | src/utils/colorContrast.ts:43-66 | white has luminance 1 and black 0 |
| ColorContrast.LuminanceRatio | src/utils/colorContrast.ts:75-78 | the ratio is at least 1, at most 21 for luminances in [0, 1], and 1 for equal luminances |
| ColorContrast.ContrastRatio | src/utils/colorContrast.ts:71-79 | the contrast ratio lies in [1, 21] and is 1 for a colour against itself |
| ColorContrast.ContrastSymmetric | src/utils/colorContrast.ts:71-79 | the contrast ratio is symmetric |
| ColorContrast.BlackOnWhiteIs21 | src/utils/colorContrast.ts:71-79 | black on white is exactly 21 |
| ColorContrast.WhiteContrast | src/utils/colorContrast.ts:71-79 | white against luminance `l` is 1.05 / (l + 0.05) |
| ColorContrast.BlackContrast | src/utils/colorContrast.ts:71-79 | black against luminance `l` is (l + 0.05) / 0.05 |
| ColorContrast.RequirementIsUpwardClosed | src/utils/colorContrast.ts:84-94 | passing a level at one ratio implies passing it at any higher ratio |
| ColorContrast.MeetsContrastRequirement | src/utils/colorContrast.ts:84-94 | AA needs 4.5 (3 for large text) and AAA needs 7 (4.5 for large text), so every level passes from 7 on and none below 3 |
| ColorContrast.LevelsAreNested | src/utils/colorContrast.ts:84-94 | AAA implies AA for the same text size; large text has the lower bar; AA for normal text is the same test as AAA for large text (4.5) |
| ColorContrast.AnalyzeContrast | src/utils/colorContrast.ts:99-112 | the result carries the pair's contrast ratio and both verdicts on it, and AAA implies AA |
| ColorContrast.Component | src/utils/colorContrast.ts:126 | `\s*(\d+)\s*` always consumes at least one character and stays within the string |
| ColorContrast.ComponentOfDecimal | src/utils/colorContrast.ts:126-131 | a number written in decimal and followed by neither a digit nor white space is read as that number, ending right after its digits |
| ColorContrast.MatchOpenStep | src/utils/colorContrast.ts:126 | at `rgb(` the match continues with the first component |
| ColorContrast.MatchOpenAlphaStep | src/utils/colorContrast.ts:126 | at `rgba(` the match continues with the first component, as at `rgb(` |
| ColorContrast.MatchRedStep | src/utils/colorContrast.ts:126-129 | a first component followed by a comma hands its value on as red, and matching continues after the comma |
| ColorContrast.MatchGreenStep | src/utils/colorContrast.ts:126-130 | a second component followed by a comma hands its value on as green, and matching continues after the comma |
| ColorContrast.MatchBlueStep | src/utils/colorContrast.ts:126-131 | a third component followed by `)` completes the match, and the triple is the three values read |
| ColorContrast.MatchAlphaStep | src/utils/colorContrast.ts:126 | a third component followed by `,`, a run of digits and dots, and `)` also completes the match; the alpha value is dropped and the triple is the three values read |
| ColorContrast.GetGradientDominantColor | src/utils/colorContrast.ts:118-139 | the result always starts with `#` and has at least 7 characters |
| ColorContrast.DominantColorPrefersLeftmostHex | src/utils/colorContrast.ts:120-123 | the leftmost `#` followed by six hex digits wins |
| ColorContrast.DominantColorFromRgb | src/utils/colorContrast.ts:126-134 | without such a match, the leftmost `rgb()`/`rgba()` triple is returned as zero-padded lower-case hex |
| ColorContrast.DominantColorFallback | src/utils/colorContrast.ts:137-138 | with neither match, the result is `#808080`, which parses as (128, 128, 128) |
| ColorContrast.DominantColorParses | src/utils/colorContrast.ts:118-139 | the result always parses back, except from an `rgb()` call with a component above 255; byte triples read back exactly |
| ColorContrast.GetOptimalTextColor | src/utils/colorContrast.ts:151-156 | the result is white or black, contrasts at least as much as either, and is white exactly when white contrasts strictly more (ties go to black) |
| ColorContrast.OptimalTextMeetsAA | src/utils/colorContrast.ts:151-156 | the chosen text colour always reaches 4.5, the AA bar for normal text |
| ColorContrast.IsLightColor | src/utils/colorContrast.ts:144-146 | light exactly when the luminance is above 1/2, which is exactly when black contrasts with it by more than 11 |
| ColorContrast.LightBackgroundGetsBlackText | src/utils/colorContrast.ts:144-156 | on a light background (luminance above 1/2) the chooser picks black |
| ColorContrast.BetterOfPairAtLeast | src/utils/colorContrast.ts:152-155 | of 1.05/x and x/0.05, whose product is 21, one is at least 4.5 |
| SmartColorSelection.SelectOptimalCTAColor | src/utils/smartColorSelection.ts:111-142 | the CTA colour always comes from the primary palette chosen opposite the background's lightness, or from the mid-tones |
| SmartColorSelection.CtaSelectionSpec | src/utils/smartColorSelection.ts:118-139 | when a primary colour reaches 3.0, the result is the first primary colour of maximal contrast; otherwise it is the first mid-tone of maximal contrast |
| SmartColorSelection.TextColorSpec | src/utils/smartColorSelection.ts:148-184 | the text/heading colour is the earliest tone of maximal contrast, and that contrast is at least 4.5, so the white/black fallback is never reached |
| SmartColorSelection.GenerateHarmoniousColorSet | src/utils/smartColorSelection.ts:189-191 | the gradient comes from the catalogue |
| SmartColorSelection.HarmoniousSetSpec | src/utils/smartColorSelection.ts:189-214 | the colours are chosen against the dominant colour; the three stored ratios are their contrasts against it; the CTA text colour is the white/black choice for the CTA |
| SmartColorSelection.HarmoniousSetProperties | src/utils/smartColorSelection.ts:189-214 | text and heading are palette tones with contrast of at least 4.5, and the CTA colour comes from its palettes |
| SmartColorSelection.ValidateIff | src/utils/smartColorSelection.ts:220-248 | the validator accepts exactly when all four clauses hold; the heading clause applies only to a given, non-empty heading |
| SmartColorSelection.CtaTextClauseAlwaysHolds | src/utils/smartColorSelection.ts:242-245 | the fourth clause holds for every CTA colour |
| SmartColorSelection.HarmoniousValidIff | src/utils/smartColorSelection.ts:220-248 | a generated set is valid exactly when its CTA colour reaches 2.5 against the background |
| SmartColorSelection.HarmoniousScorePositive | src/utils/smartColorSelection.ts:260-264 | every attempt's score is at least 3, so `score > bestScore` from 0 never rejects a valid attempt |
| SmartColorSelection.GenerateOptimalColorSet | src/utils/smartColorSelection.ts:254-285 | the result is either one of the attempts or the fast-remix entry of the next draw |
| SmartColorSelection.OptimalColorSetWhenSomeValid | src/utils/smartColorSelection.ts:257-284 | when some attempt validates, the result is the first attempt of maximal score among the valid ones |
| SmartColorSelection.OptimalColorSetWinnerIsValid | src/utils/smartColorSelection.ts:266-273 | the winning attempt passes the validator |
| SmartColorSelection.OptimalColorSetWhenNoneValid | src/utils/smartColorSelection.ts:277-281 | when no attempt validates, including when `attempts <= 0`, the result is a fast-remix entry |
| SmartColorSelection.GenerateFastRemixColorSet | src/utils/smartColorSelection.ts:454-458 | the result equals, field for field, an entry of the fast-remix table |
| SmartColorSelection.CtaPool | src/utils/smartColorSelection.ts:470-472 | the variation pool contains two distinct mid-tones |
| SmartColorSelection.Alternatives | src/utils/smartColorSelection.ts:475 | the pool minus the current CTA colour is never empty, and contains only pool colours other than the current one |
| SmartColorSelection.FirstAlternative | src/utils/smartColorSelection.ts:475-477 | the first alternative is the pool's first colour, or its second when the first is the current CTA colour |
| SmartColorSelection.PickAlternative | src/utils/smartColorSelection.ts:477-486 | the pick is one of the alternatives: when one reaches 3.0, the first of maximal contrast; otherwise the first alternative |
| SmartColorSelection.CreateColorVariation | src/utils/smartColorSelection.ts:463-500 | the new CTA colour is from the pool and differs from the old one; it is the first alternative of maximal contrast when one reaches 3.0, and the first alternative otherwise; the gradient, text and heading colours and their two ratios are unchanged; the CTA ratio and CTA text colour are recomputed |
| TtlCache.EffectiveTtl | src/utils/cache.ts:15 | `ttl \|\| defaultTTL`: never 0; a given non-zero ttl, negative ones included, is used as is; a missing or zero ttl becomes five minutes |
| TtlCache.Cleanup | src/utils/cache.ts:65-73 | exactly the entries that are not expired remain, unchanged |
| TtlCache.CleanupIdempotent | src/utils/cache.ts:65-73 | cleaning up twice at one instant is the same as once |
| TtlCache.Set | src/utils/cache.ts:13-25 | the key holds `data` stamped `now`, expiring at `now` plus the effective ttl, unless that is already past; no expired entry remains; other keys keep exactly their live entries |
| TtlCache.Get | src/utils/cache.ts:27-40 | an absent key gives null and no change; an expired key gives null and removes exactly that key; a live key gives its data and no change |
| TtlCache.Has | src/utils/cache.ts:42-55 | true exactly for a live key |
| TtlCache.HasAgreesWithGet | src/utils/cache.ts:27-55 | `has` answers and changes the store exactly as `get` does |
| TtlCache.GetAfterSet | src/utils/cache.ts:13-40 | a value is read back at every instant up to and including its expiry |
| TtlCache.GetAfterExpiry | src/utils/cache.ts:34-37 | one instant after expiry the value reads as null and its key is gone |
| TtlCache.NegativeTtlStoresNothing | src/utils/cache.ts:15-24 | a negative ttl leaves nothing behind |
| TtlCache.Delete | src/utils/cache.ts:57-59 | only the given key is removed |
| TtlCache.GetAfterDelete | src/utils/cache.ts:57-59 | a deleted key reads as null and other keys read as before |
| TtlCache.Clear | src/utils/cache.ts:61-63 | the store is empty |
| TtlCache.GetAfterClear | src/utils/cache.ts:61-63 | nothing is read back after `clear` |
| TtlCache.GetStats | src/utils/cache.ts:76-90 | `active` counts the live entries, and `active + expired == total ==` the store's size |
| TtlCache.StatsAfterSet | src/utils/cache.ts:13-25 | right after `set`, nothing counts as expired |
| TtlCache.MemoKey | src/utils/cache.ts:103 | keys have the form `memoize:<name>:<key>`: the fixed prefix, then the name, a colon, and the argument key, at fixed positions |
| TtlCache.Memoized | src/utils/cache.ts:101-113 | a non-null cached value is returned as is; when the lookup yields null, `fn` is evaluated and its result stored |
| TtlCache.MemoizedAgreesWithFn | src/utils/cache.ts:101-113 | with a cache that only ever held `fn`'s result for the key, the memoized call returns `fn`'s result |
| TtlCache.MemoizedHit | src/utils/cache.ts:101-113 | when the first call on a fresh key yields a non-null result, repeats within the ttl window are served from the cache and leave it unchanged |
| TtlCache.MemoizedRepeatSameInstant | src/utils/cache.ts:101-113 | for a non-negative ttl, a non-null result is never computed twice at the same instant |
| TtlCache.MemoizedNullRecomputed | src/utils/cache.ts:105-110 | a null result is never served from the cache: the next call evaluates `fn` again |
| Gradients.LuminanceOfSixDigits | src/utils/gradients.ts:14-23 | `#RRGGBB` reads as 0.2126 r + 0.7152 g + 0.0722 b over channels divided by 255, with no gamma step, and lies in [0, 1] |
| Gradients.LinearLuminanceBounds | src/utils/gradients.ts:22 | for bytes the sum lies in [0, 1]; it is 1 exactly for white and 0 exactly for black |
| Gradients.WhiteAndBlackLuminance | src/utils/gradients.ts:14-23 | `#FFFFFF`/`#ffffff` reads 1 and `#000000` reads 0 |
| Gradients.ShorthandIsNaN | src/utils/gradients.ts:16-19 | a `#RGB` shorthand is NaN, because its third group is empty |
| Gradients.IsGradientDark | src/utils/gradients.ts:26-32 | fewer than two colours make the source throw (modelled as `None`); otherwise there is always a verdict |
| Gradients.IsGradientDarkOfNumbers | src/utils/gradients.ts:26-32 | with numeric luminances, dark means the mean is below 1/2, that is, the luminances sum to less than 1 |
| Gradients.NaNIsNotDark | src/utils/gradients.ts:30-31 | a NaN luminance on either side makes the comparison false |
| Gradients.IsGradientDarkOfHexColors | src/utils/gradients.ts:26-32 | two `#RRGGBB` colours never meet NaN |
| Gradients.WhiteStartIsLight | src/utils/gradients.ts:26-32 | a gradient starting from white is never dark when its second colour is `#RRGGBB` |
| Gradients.GetRandomGradient | src/utils/gradients.ts:48-54 | null exactly for an empty catalogue, otherwise one of its gradients |
| Gradients.GenerateGradientStyle | src/utils/gradients.ts:56-63 | null gives the fixed default; otherwise a `linear-gradient(to right, …)` string whose two colour slots hold the gradient's first and second colours, separated by `, ` and closed by `)` |
| Gradients.StyleDominantColorIsFirst | src/utils/gradients.ts:61-62 | the contrast engine reads a generated background's dominant colour back as the gradient's first colour, whenever that is `#RRGGBB` |
| Gradients.DefaultStyleDominantColor | src/utils/gradients.ts:58 | the default background reads back as `#f3f4f6` |

## Left out

- Exact gamma: `Math.pow(…, 2.4)` is any `PowerCurve`. No concrete palette contrast is computed. The results hold for the real curve because t^2.4 has the three properties assumed.
- Floating point: every number is an exact `real` or `int`. Rounding of the luminance and ratio arithmetic is not modelled. Neither is the precision loss of `parseInt` on `rgb()` components of more than 15 digits.
- The `RGBColor` overload of `calculateLuminance` and `getContrastRatio` (colorContrast.ts:50-52) appears only as `RgbLuminance` on a channel triple. Every caller in the modelled files passes strings.
- Default parameter values are the caller's concern; the model takes every such argument as a plain parameter: `isLargeText = false` of `analyzeContrast` (colorContrast.ts:102), `level = 'AA'` and `isLargeText = false` of `meetsContrastRequirement` (colorContrast.ts:86-87), and `isHeading = false` of `selectOptimalTextColor` (smartColorSelection.ts:150).
- SmartColorSelection.GenerateOptimalColorSet: `attempts` is a plain integer parameter. The source's default of 15 (smartColorSelection.ts:254) is the caller's concern. A fractional attempt count, which would run `ceil(attempts)` iterations, is not modelled.
- The fast-remix table is taken as data. Its stored ratios are hand-typed, and nothing proves that a fallback set passes the validator. The copy made by `{ ...entry }` is a value, so it is indistinguishable from the entry.
- `console.log` (smartColorSelection.ts:280) is dropped.
- TtlCache.Set: the source reads the clock twice, once for the expiry and again inside `cleanup`. The model uses one instant for both. It therefore does not model an entry that expires between the two reads.
- The module-level `cache` singleton is modelled as a value threaded through the calls, not as shared mutable state.
- TtlCache.Memoized:
  - takes the key generator as a parameter (`JSON.stringify` of the arguments when none is given) and the function's `name` as a string;
  - models `fn`'s results as `Option`, with `None` for `null`;
  - does not model `undefined` separately, although the source treats it as a hit.
  - uses one instant for the lookup and the store that follows it, where the source reads the clock for each.
- `cachedFetch` and `useCachedData` (cache.ts:117-158) are network and React I/O built on `get`/`set`. `fetchGradients` (gradients.ts:34-46) is network I/O.
- Gradients.GetRandomGradient: the catalogue is a list in `Object.values` order. JavaScript's ordering of integer-like keys first is not modelled.
- Gradients.GetLuminance: `parseInt` is modelled on the characters it reads. Numbers beyond 2^53 cannot arise from a two-character group.
- Strings are sequences of Unicode scalar values, not UTF-16 code units. The regular expressions and `replace` work the same on both, because every pattern they look for is a single code unit.
- Gradients.GetLuminance: `substr` indices count Unicode scalar values, not UTF-16 code units, so the model differs from the source on a colour holding an astral-plane character, such as `#1😀2345`.
- ColorContrast.MatchRgbAt: the value read for each component, and each step of the match, are proved. The match of a whole `rgb(r,g,b)` string written in decimal is not proved in one lemma, because unfolding three components at once exceeds the verifier's resource bound.
- The UI, React hooks, LLM calls, analytics, the zod schema and the static gradient JSON are outside this model.

=== FILE: cache.dfy ===
/**
 * The in-memory cache of src/utils/cache.ts. The store is a value: every
 * operation takes the current time `now` (milliseconds, the source's
 * `Date.now()`) and returns the new store alongside its result.
 */
module TtlCache {
  import opened Options

  /** Five minutes, in milliseconds. */
  const DefaultTtl: int := 5 * 60 * 1000

  datatype Item<V> = Item(data: V, timestamp: int, expiresAt: int)

  datatype Cache<V> = Cache(storage: map<string, Item<V>>)

  datatype Stats = Stats(active: nat, expired: nat, total: nat)

  /** The empty store the module starts with. */
  function Empty<V>(): (c: Cache<V>)
    ensures |c.storage| == 0
  {
    Cache(map[])
  }

  /** Expiry is strict: an item is still live at the instant `expiresAt`. */
  predicate IsExpired<V>(item: Item<V>, now: int) {
    now > item.expiresAt
  }

  /** `ttl || defaultTTL`: a missing or zero ttl means five minutes. */
  function EffectiveTtl(ttl: Option<int>): (t: int)
    ensures t != 0
    ensures ttl.Some? && ttl.value != 0 ==> t == ttl.value
    ensures ttl.None? || ttl == Some(0) ==> t == DefaultTtl
  {
    if ttl.Some? && ttl.value != 0 then ttl.value else DefaultTtl
  }

  /** `cleanup`: drop every expired entry and keep the others as they are. */
  function Cleanup<V>(c: Cache<V>, now: int): (r: Cache<V>)
    ensures forall k :: k in r.storage <==> k in c.storage && !IsExpired(c.storage[k], now)
    ensures forall k | k in r.storage :: r.storage[k] == c.storage[k]
  {
    Cache(map k | k in c.storage && !IsExpired(c.storage[k], now) :: c.storage[k])
  }

  /** `set`: store `data` until `now + EffectiveTtl(ttl)`, then clean up. */
  function Set<V>(c: Cache<V>, now: int, key: string, data: V, ttl: Option<int>): (r: Cache<V>)
    ensures forall k | k in r.storage :: !IsExpired(r.storage[k], now)
    ensures EffectiveTtl(ttl) >= 0 ==> key in r.storage && r.storage[key] == Item(data, now, now + EffectiveTtl(ttl))
    ensures EffectiveTtl(ttl) < 0 ==> key !in r.storage
    ensures forall k | k != key :: k in r.storage <==> k in c.storage && !IsExpired(c.storage[k], now)
    ensures forall k | k != key && k in r.storage :: r.storage[k] == c.storage[k]
  {
    Cleanup(Cache(c.storage[key := Item(data, now, now + EffectiveTtl(ttl))]), now)
  }

  /** `get`: the data of a live entry; an expired entry is deleted and reads as null (`None`). */
  function Get<V>(c: Cache<V>, now: int, key: string): (r: (Option<V>, Cache<V>))
    ensures key !in c.storage ==> r == (None, c)
    ensures key in c.storage && IsExpired(c.storage[key], now) ==>
      r.0 == None && r.1.storage == c.storage - {key}
    ensures key in c.storage && !IsExpired(c.storage[key], now) ==>
      r == (Some(c.storage[key].data), c)
  {
    if key !in c.storage then (None, c)
    else if IsExpired(c.storage[key], now) then (None, Cache(c.storage - {key}))
    else (Some(c.storage[key].data), c)
  }

  /** `has`: whether a live entry exists, deleting an expired one. */
  function Has<V>(c: Cache<V>, now: int, key: string): (r: (bool, Cache<V>))
    ensures r.0 <==> key in c.storage && !IsExpired(c.storage[key], now)
  {
    if key !in c.storage then (false, c)
    else if IsExpired(c.storage[key], now) then (false, Cache(c.storage - {key}))
    else (true, c)
  }

  /** `has` answers and changes the store exactly as `get` does. */
  lemma HasAgreesWithGet<V>(c: Cache<V>, now: int, key: string)
    ensures Has(c, now, key) == (Get(c, now, key).0.Some?, Get(c, now, key).1)
  {
  }

  /** `delete`: remove one key. */
  function Delete<V>(c: Cache<V>, key: string): (r: Cache<V>)
    ensures key !in r.storage
    ensures forall k | k != key :: k in r.storage <==> k in c.storage
    ensures forall k | k != key && k in r.storage :: r.storage[k] == c.storage[k]
  {
    Cache(c.storage - {key})
  }

  /** `clear`: remove every key. */
  function Clear<V>(c: Cache<V>): (r: Cache<V>)
    ensures |r.storage| == 0
  {
    Empty()
  }

  /** The keys `get` would still answer at time `now`. */
  function LiveKeys<V>(c: Cache<V>, now: int): (ks: set<string>)
    ensures ks <= c.storage.Keys
  {
    set k | k in c.storage && !IsExpired(c.storage[k], now)
  }

  /** Taking one key out of the unvisited set moves it into exactly one of the two counts. */
  lemma CountStep<T>(remaining: set<T>, live: set<T>, k: T)
    requires k in remaining
    ensures |remaining - {k}| == |remaining| - 1
    ensures |live - (remaining - {k})| == |live - remaining| + (if k in live then 1 else 0)
  {
    if k in live {
      assert live - (remaining - {k}) == (live - remaining) + {k};
    } else {
      assert live - (remaining - {k}) == live - remaining;
    }
  }

  /**
   * `getStats`: count live and expired entries in one pass over the store,
   * which it leaves unchanged.
   */
  method GetStats<V>(c: Cache<V>, now: int) returns (s: Stats)
    ensures s.active == |LiveKeys(c, now)|
    ensures s.active + s.expired == s.total == |c.storage|
  {
    ghost var live := LiveKeys(c, now);
    var remaining := c.storage.Keys;
    var active: nat, expired: nat := 0, 0;
    while remaining != {}
      invariant remaining <= c.storage.Keys
      invariant active == |live - remaining|
      invariant active + expired + |remaining| == |c.storage|
      decreases |remaining|
    {
      var k :| k in remaining;
      CountStep(remaining, live, k);
      if IsExpired(c.storage[k], now) {
        expired := expired + 1;
      } else {
        active := active + 1;
      }
      remaining := remaining - {k};
    }
    assert live - remaining == live;
    s := Stats(active, expired, |c.storage|);
  }

  // ------------------------------------------------------------------ lemmas

  /** A value set at `t0` is read back at every `t1` up to and including its expiry instant. */
  lemma GetAfterSet<V>(c: Cache<V>, t0: int, t1: int, key: string, data: V, ttl: Option<int>)
    requires t0 <= t1 <= t0 + EffectiveTtl(ttl)
    ensures Get(Set(c, t0, key, data, ttl), t1, key).0 == Some(data)
  {
  }

  /** One instant past its expiry the value reads as null and the key is gone. */
  lemma GetAfterExpiry<V>(c: Cache<V>, t0: int, key: string, data: V, ttl: Option<int>)
    requires EffectiveTtl(ttl) >= 0
    ensures var t1 := t0 + EffectiveTtl(ttl) + 1;
      var r := Get(Set(c, t0, key, data, ttl), t1, key);
      r.0 == None && key !in r.1.storage
  {
  }

  /** A negative ttl stores nothing: the cleanup that follows removes the key at once. */
  lemma NegativeTtlStoresNothing<V>(c: Cache<V>, now: int, key: string, data: V, t: int)
    requires t < 0
    ensures Get(Set(c, now, key, data, Some(t)), now, key) == (None, Set(c, now, key, data, Some(t)))
  {
  }

  /** Cleaning up twice at the same instant is the same as once. */
  lemma CleanupIdempotent<V>(c: Cache<V>, now: int)
    ensures Cleanup(Cleanup(c, now), now) == Cleanup(c, now)
  {
  }

  /** After `set`, the statistics at the same instant count no expired entry. */
  method StatsAfterSet<V>(c: Cache<V>, now: int, key: string, data: V, ttl: Option<int>) returns (s: Stats)
    ensures s.expired == 0 && s.active == s.total
  {
    var r := Set(c, now, key, data, ttl);
    s := GetStats(r, now);
    assert LiveKeys(r, now) == r.storage.Keys;
  }

  /** A deleted key reads as null; every other key reads as before. */
  lemma GetAfterDelete<V>(c: Cache<V>, now: int, key: string, other: string)
    ensures Get(Delete(c, key), now, key) == (None, Delete(c, key))
    ensures other != key ==> Get(Delete(c, key), now, other).0 == Get(c, now, other).0
  {
  }

  /** Nothing can be read back after `clear`. */
  lemma GetAfterClear<V>(c: Cache<V>, now: int, key: string)
    ensures Get(Clear(c), now, key).0 == None
  {
  }

  // ----------------------------------------------------------------- memoize

  /** The key `memoize` files a call under: `memoize:<function name>:<argument key>`. */
  function MemoKey(name: string, argKey: string): (k: string)
    ensures |k| == 9 + |name| + |argKey| && k[..8] == "memoize:"
    ensures k[8..8 + |name|] == name && k[8 + |name|] == ':' && k[9 + |name|..] == argKey
  {
    "memoize:" + name + ":" + argKey
  }

  /**
   * One call of a memoized `fn` named `name`: `None` is JavaScript's null.
   * The source caches `fn`'s result unless the lookup yields null, which is
   * both a miss and a stored null; `keyGen` is the key generator, or
   * `JSON.stringify` of the arguments when none is given.
   */
  function Memoized<A, R>(c: Cache<Option<R>>, now: int, name: string, keyGen: A -> string,
                          fn: A -> Option<R>, ttl: Option<int>, args: A): (r: (Option<R>, Cache<Option<R>>))
    ensures var key := MemoKey(name, keyGen(args));
      var (got, c1) := Get(c, now, key);
      && (got.Some? && got.value.Some? ==> r == (got.value, c1))
      && (got.None? || got.value.None? ==> r == (fn(args), Set(c1, now, key, fn(args), ttl)))
  {
    var key := MemoKey(name, keyGen(args));
    var (got, c1) := Get(c, now, key);
    if got.None? || got.value.None? then
      var result := fn(args);
      (result, Set(c1, now, key, result, ttl))
    else
      (got.value, c1)
  }

  /** The result of a memoized call is always what `fn` returns, cached or not, while the entry is live. */
  lemma MemoizedAgreesWithFn<A, R>(c: Cache<Option<R>>, now: int, name: string, keyGen: A -> string,
                                   fn: A -> Option<R>, ttl: Option<int>, args: A)
    requires forall k | k in c.storage && k == MemoKey(name, keyGen(args)) :: c.storage[k].data == fn(args)
    ensures Memoized(c, now, name, keyGen, fn, ttl, args).0 == fn(args)
  {
  }

  /**
   * The first call for a fresh key stores a non-null result, and every repeat
   * within the ttl window is served from the cache, leaving the store as it was.
   */
  lemma MemoizedHit<A, R>(c: Cache<Option<R>>, t0: int, t1: int, name: string, keyGen: A -> string,
                          fn: A -> Option<R>, ttl: Option<int>, args: A)
    requires MemoKey(name, keyGen(args)) !in c.storage
    requires t0 <= t1 <= t0 + EffectiveTtl(ttl)
    requires fn(args).Some?
    ensures var (v0, c0) := Memoized(c, t0, name, keyGen, fn, ttl, args);
      v0 == fn(args) && Memoized(c0, t1, name, keyGen, fn, ttl, args) == (v0, c0)
  {
  }

  /** Repeating a call at the same instant never evaluates a non-null result twice. */
  lemma MemoizedRepeatSameInstant<A, R>(c: Cache<Option<R>>, now: int, name: string, keyGen: A -> string,
                                        fn: A -> Option<R>, ttl: Option<int>, args: A)
    requires EffectiveTtl(ttl) >= 0
    ensures var (v0, c0) := Memoized(c, now, name, keyGen, fn, ttl, args);
      v0.Some? ==> Memoized(c0, now, name, keyGen, fn, ttl, args) == (v0, c0)
  {
  }

  /** A null result is never served from the cache: after a call that returned null, the next one evaluates `fn` again. */
  lemma MemoizedNullRecomputed<A, R>(c: Cache<Option<R>>, t0: int, t1: int, name: string, keyGen: A -> string,
                                     fn: A -> Option<R>, ttl: Option<int>, args: A)
    ensures var (v0, c0) := Memoized(c, t0, name, keyGen, fn, ttl, args);
      var key := MemoKey(name, keyGen(args));
      v0.None? ==> Memoized(c0, t1, name, keyGen, fn, ttl, args) == (fn(args), Set(Get(c0, t1, key).1, t1, key, fn(args), ttl))
  {
  }
}

=== FILE: color_contrast.dfy ===
/**
 * The contrast engine of src/utils/colorContrast.ts: hex parsing, the WCAG 2.1
 * relative luminance and contrast ratio, the AA/AAA thresholds of WCAG 2.1
 * success criteria 1.4.3 and 1.4.6, dominant-colour extraction from a CSS
 * gradient string and the white-or-black text chooser.
 *
 * The exponent step `Math.pow((c + 0.055) / 1.055, 2.4)` is not computed: every
 * luminance-dependent member takes the curve t ↦ t^2.4 as a `PowerCurve`
 * parameter, of which only what the real curve satisfies on [0, 1] is known.
 */
module ColorContrast {
  import opened Options
  import opened JsText
  import opened Selection

  // ---------------------------------------------------------------- colours

  /** `RGBColor`; `HexToRgb` only ever produces channels in 0..255. */
  datatype Rgb = Rgb(r: int, g: int, b: int)

  predicate IsByteColor(c: Rgb) {
    0 <= c.r <= 255 && 0 <= c.g <= 255 && 0 <= c.b <= 255
  }

  const WhiteHex: string := "#FFFFFF"
  const BlackHex: string := "#000000"
  const NeutralHex: string := "#808080"

  /** A three-character remainder is widened by doubling every character. */
  function ExpandShorthand(h: string): string {
    if |h| == 3 then DoubleEach(h) else h
  }

  /**
   * `hexToRgb`: drop the first `#` (wherever it is), widen a three-character
   * remainder, then accept exactly six hex digits of either case.
   */
  function HexToRgb(hex: string): (c: Option<Rgb>)
    ensures c.Some? ==> IsByteColor(c.value)
  {
    var h := ExpandShorthand(RemoveFirst(hex, '#'));
    if |h| == 6 && AllHex(h) then
      Some(Rgb(ByteValue(h[0], h[1]), ByteValue(h[2], h[3]), ByteValue(h[4], h[5])))
    else
      None
  }

  /** The texts `hexToRgb` accepts: after dropping the first `#`, three or six hex digits. */
  ghost predicate IsHexColorText(s: string) {
    var h := RemoveFirst(s, '#');
    (|h| == 3 || |h| == 6) && AllHex(h)
  }

  lemma {:induction false} DoubleEachHex(h: string)
    ensures AllHex(DoubleEach(h)) <==> AllHex(h)
  {
    var d := DoubleEach(h);
    if AllHex(h) {
      forall j | 0 <= j < |d| ensures IsHexDigit(d[j]) {
        if j % 2 == 0 { assert d[2 * (j / 2)] == h[j / 2]; } else { assert d[2 * (j / 2) + 1] == h[j / 2]; }
      }
    }
    if AllHex(d) {
      forall i | 0 <= i < |h| ensures IsHexDigit(h[i]) {
        assert d[2 * i] == h[i];
      }
    }
  }

  /** `hexToRgb` returns a colour exactly for three- or six-digit hex texts, and null otherwise. */
  lemma HexToRgbAccepts(s: string)
    ensures HexToRgb(s).Some? <==> IsHexColorText(s)
  {
    DoubleEachHex(RemoveFirst(s, '#'));
  }

  /** A three-digit colour stands for the six-digit colour with every digit doubled: each channel is 17 times its digit. */
  lemma HexToRgbShorthand(a: char, b: char, c: char)
    requires IsHexDigit(a) && IsHexDigit(b) && IsHexDigit(c)
    ensures HexToRgb(['#', a, b, c]) == Some(Rgb(17 * HexDigitValue(a), 17 * HexDigitValue(b), 17 * HexDigitValue(c)))
  {
    var h := RemoveFirst(['#', a, b, c], '#');
    assert IndexOf(['#', a, b, c], '#') == 0;
    assert h == [a, b, c];
    var d := DoubleEach(h);
    assert d[2 * 0] == a && d[2 * 0 + 1] == a;
    assert d[2 * 1] == b && d[2 * 1 + 1] == b;
    assert d[2 * 2] == c && d[2 * 2 + 1] == c;
    assert d == [a, a, b, b, c, c];
  }

  /** The leading `#` is optional. */
  lemma HashIsOptional(s: string)
    requires '#' !in s
    ensures HexToRgb("#" + s) == HexToRgb(s)
  {
    assert IndexOf("#" + s, '#') == 0;
    assert RemoveFirst("#" + s, '#') == s;
  }

  /** Only the first `#` is dropped: a text holding two of them is never a colour. */
  lemma TwoHashesRejected(s: string, i: nat, j: nat)
    requires i < j < |s| && s[i] == '#' && s[j] == '#'
    ensures HexToRgb(s) == None
  {
    var h := RemoveFirst(s, '#');
    var k :| 0 <= k < |s| && s[k] == '#' && '#' !in s[..k] && h == s[..k] + s[k + 1..];
    assert k <= i;
    assert h[j - 1] == '#';
    if |h| == 3 {
      DoubleEachHex(h);
    }
  }

  /** Worked example: `#fff` is white. */
  lemma ShorthandWhiteExample()
    ensures HexToRgb("#fff") == Some(Rgb(255, 255, 255))
  {
    HexToRgbShorthand('f', 'f', 'f');
    assert "#fff" == ['#', 'f', 'f', 'f'];
  }

  /** Worked example: `zzzzzz` is not a colour. */
  lemma NonHexExample()
    ensures HexToRgb("zzzzzz") == None
  {
    var s := "zzzzzz";
    assert '#' !in s by {
      forall i | 0 <= i < |s| ensures s[i] != '#' { }
    }
    assert RemoveFirst(s, '#') == s;
    assert !IsHexDigit(s[0]);
  }

  /** `#RRGGBB` with each channel as `toString(16).padStart(2, '0')`, as the rgb() branch of the dominant-colour search writes it. */
  function FormatHex(r: nat, g: nat, b: nat): string {
    "#" + PadStart2(NatToHex(r)) + PadStart2(NatToHex(g)) + PadStart2(NatToHex(b))
  }

  /** Formatting a byte colour and parsing it back gives the same colour. */
  lemma FormatHexRoundTrip(r: nat, g: nat, b: nat)
    requires r <= 255 && g <= 255 && b <= 255
    ensures HexToRgb(FormatHex(r, g, b)) == Some(Rgb(r, g, b))
  {
    ByteHexRoundTrip(r);
    ByteHexRoundTrip(g);
    ByteHexRoundTrip(b);
    var x, y, z := PadStart2(NatToHex(r)), PadStart2(NatToHex(g)), PadStart2(NatToHex(b));
    assert FormatHex(r, g, b) == "#" + x + y + z;
    HexPairsParse(x, y, z);
  }

  /** Three two-digit hex groups after a `#` parse to their three byte values. */
  lemma HexPairsParse(x: string, y: string, z: string)
    requires |x| == 2 && |y| == 2 && |z| == 2 && AllHex(x) && AllHex(y) && AllHex(z)
    ensures HexToRgb("#" + x + y + z) == Some(Rgb(ByteValue(x[0], x[1]), ByteValue(y[0], y[1]), ByteValue(z[0], z[1])))
  {
    var d := x + y + z;
    assert d == [x[0], x[1], y[0], y[1], z[0], z[1]];
    assert "#" + x + y + z == "#" + d;
    SixDigitsParse("#" + d, d);
  }

  // -------------------------------------------------------------- luminance

  /** What the curve t ↦ t^2.4 satisfies on [0, 1]: it stays in [0, 1], is monotone and fixes 1. */
  ghost predicate IsPowerCurve(f: real -> real) {
    && (forall t :: 0.0 <= t <= 1.0 ==> 0.0 <= f(t) <= 1.0)
    && (forall s, t :: 0.0 <= s <= t <= 1.0 ==> f(s) <= f(t))
    && f(1.0) == 1.0
  }

  type PowerCurve = f: real -> real | IsPowerCurve(f) witness (t: real) => t

  /** The sRGB transfer step for one channel already scaled to [0, 1]. */
  function Linearize(curve: PowerCurve, c: real): (v: real)
    ensures 0.0 <= c <= 1.0 ==> 0.0 <= v <= 1.0
  {
    if c <= 0.03928 then c / 12.92 else curve((c + 0.055) / 1.055)
  }

  /** The luminance of a channel triple: the weighted sum of the linearised channels. */
  function RgbLuminance(curve: PowerCurve, c: Rgb): (l: real)
    ensures IsByteColor(c) ==> 0.0 <= l <= 1.0
  {
    0.2126 * Linearize(curve, c.r as real / 255.0)
    + 0.7152 * Linearize(curve, c.g as real / 255.0)
    + 0.0722 * Linearize(curve, c.b as real / 255.0)
  }

  /** `calculateLuminance` of a colour string: 0 (black) when the string does not parse. */
  function CalculateLuminance(curve: PowerCurve, color: string): (l: real)
    ensures 0.0 <= l <= 1.0
    ensures HexToRgb(color).None? ==> l == 0.0
  {
    match HexToRgb(color)
    case None => 0.0
    case Some(c) => RgbLuminance(curve, c)
  }

  lemma SixDigitsParse(s: string, d: string)
    requires |d| == 6 && AllHex(d) && s == "#" + d
    ensures HexToRgb(s) == Some(Rgb(ByteValue(d[0], d[1]), ByteValue(d[2], d[3]), ByteValue(d[4], d[5])))
  {
    assert IndexOf(s, '#') == 0;
    assert RemoveFirst(s, '#') == d;
  }

  /** White has luminance 1 and black 0, whatever the curve does strictly inside (0, 1). */
  lemma WhiteAndBlackLuminance(curve: PowerCurve)
    ensures CalculateLuminance(curve, WhiteHex) == 1.0
    ensures CalculateLuminance(curve, BlackHex) == 0.0
  {
    WhiteParses();
    BlackParses();
    assert Linearize(curve, 1.0) == 1.0 by {
      assert (1.0 + 0.055) / 1.055 == 1.0;
    }
    assert Linearize(curve, 0.0) == 0.0;
  }

  lemma WhiteParses()
    ensures HexToRgb(WhiteHex) == Some(Rgb(255, 255, 255))
  {
    var d := "FFFFFF";
    assert AllHex(d);
    assert WhiteHex == "#" + d;
    SixDigitsParse(WhiteHex, d);
    assert ByteValue(d[0], d[1]) == 255 && ByteValue(d[2], d[3]) == 255 && ByteValue(d[4], d[5]) == 255;
  }

  lemma BlackParses()
    ensures HexToRgb(BlackHex) == Some(Rgb(0, 0, 0))
  {
    var d := "000000";
    assert AllHex(d);
    assert BlackHex == "#" + d;
    SixDigitsParse(BlackHex, d);
    assert ByteValue(d[0], d[1]) == 0 && ByteValue(d[2], d[3]) == 0 && ByteValue(d[4], d[5]) == 0;
  }

  // ----------------------------------------------------------- contrast ratio

  /** A quotient of two positive reals, the larger on top, lies between 1 and the bound `c` when `a <= c * b`. */
  lemma QuotientBounds(a: real, b: real, c: real)
    requires 0.0 < b <= a && a <= c * b
    ensures 1.0 <= a / b <= c
    ensures a == b ==> a / b == 1.0
  {
    var q := a / b;
    assert q * b == a;
  }

  /** `(lighter + 0.05) / (darker + 0.05)` for two luminances. */
  function LuminanceRatio(l1: real, l2: real): (r: real)
    requires 0.0 <= l1 && 0.0 <= l2
    ensures r >= 1.0
    ensures l1 <= 1.0 && l2 <= 1.0 ==> r <= 21.0
    ensures l1 == l2 ==> r == 1.0
  {
    var lighter := if l1 >= l2 then l1 else l2;
    var darker := if l1 <= l2 then l1 else l2;
    var bound := if lighter <= 1.0 then 21.0 else (lighter + 0.05) / 0.05;
    QuotientBounds(lighter + 0.05, darker + 0.05, bound);
    (lighter + 0.05) / (darker + 0.05)
  }

  lemma RatioAgainstTop(l: real)
    requires 0.0 <= l <= 1.0
    ensures LuminanceRatio(1.0, l) == 1.05 / (l + 0.05)
  {
  }

  /** `getContrastRatio`: the WCAG contrast ratio, always in [1, 21]. */
  function ContrastRatio(curve: PowerCurve, a: string, b: string): (r: real)
    ensures 1.0 <= r <= 21.0
    ensures a == b ==> r == 1.0
  {
    LuminanceRatio(CalculateLuminance(curve, a), CalculateLuminance(curve, b))
  }

  lemma ContrastSymmetric(curve: PowerCurve, a: string, b: string)
    ensures ContrastRatio(curve, a, b) == ContrastRatio(curve, b, a)
  {
    LuminanceRatioSymmetric(CalculateLuminance(curve, a), CalculateLuminance(curve, b));
  }

  lemma LuminanceRatioSymmetric(l1: real, l2: real)
    requires 0.0 <= l1 && 0.0 <= l2
    ensures LuminanceRatio(l1, l2) == LuminanceRatio(l2, l1)
  {
    var lighter := if l1 >= l2 then l1 else l2;
    var darker := if l1 <= l2 then l1 else l2;
    assert LuminanceRatio(l1, l2) == (lighter + 0.05) / (darker + 0.05) == LuminanceRatio(l2, l1);
  }

  /** Black on white reaches the top of the scale. */
  lemma BlackOnWhiteIs21(curve: PowerCurve)
    ensures ContrastRatio(curve, BlackHex, WhiteHex) == 21.0
  {
    WhiteAndBlackLuminance(curve);
  }

  /** The ratio of white against a colour of luminance `l` is 1.05 / (l + 0.05). */
  lemma WhiteContrast(curve: PowerCurve, bg: string)
    ensures ContrastRatio(curve, WhiteHex, bg) == 1.05 / (CalculateLuminance(curve, bg) + 0.05)
  {
    WhiteAndBlackLuminance(curve);
    var l := CalculateLuminance(curve, bg);
    assert ContrastRatio(curve, WhiteHex, bg) == LuminanceRatio(1.0, l);
    RatioAgainstTop(l);
  }

  /** The ratio of black against a colour of luminance `l` is (l + 0.05) / 0.05. */
  lemma BlackContrast(curve: PowerCurve, bg: string)
    ensures ContrastRatio(curve, BlackHex, bg) == (CalculateLuminance(curve, bg) + 0.05) / 0.05
  {
    WhiteAndBlackLuminance(curve);
    var l := CalculateLuminance(curve, bg);
    assert ContrastRatio(curve, BlackHex, bg) == LuminanceRatio(0.0, l);
  }

  /** Of 1.05 / x and x / 0.05, whose product is 21, one is at least 4.5. */
  lemma BetterOfPairAtLeast(x: real)
    requires 0.05 <= x <= 1.05
    ensures 1.05 / x >= 4.5 || x / 0.05 >= 4.5
  {
    if x < 0.225 {
      var w := 1.05 / x;
      assert w * x == 1.05;
      assert w * 0.225 > w * x;
    }
  }

  /** Above x = 0.55 the first of the pair is below 2 and the second above 11. */
  lemma PairAboveHalf(x: real)
    requires 0.55 < x <= 1.05
    ensures 1.05 / x < 2.0 && x / 0.05 > 11.0
  {
    var w := 1.05 / x;
    assert w * x == 1.05;
    assert w * 0.55 < w * x;
  }

  // ---------------------------------------------------------------- thresholds

  datatype Level = AA | AAA

  /**
   * `meetsContrastRequirement`: success criteria 1.4.3 (AA) and 1.4.6 (AAA) of
   * WCAG 2.1. Every bar lies between 3 (AA, large text) and 7 (AAA, normal text).
   */
  function MeetsContrastRequirement(ratio: real, level: Level, isLargeText: bool): (meets: bool)
    ensures ratio >= 7.0 ==> meets
    ensures ratio < 3.0 ==> !meets
  {
    if level == AA then
      (if isLargeText then ratio >= 3.0 else ratio >= 4.5)
    else
      (if isLargeText then ratio >= 4.5 else ratio >= 7.0)
  }

  /** Each level's requirement is an upward-closed threshold on the ratio. */
  lemma RequirementIsUpwardClosed(ratio: real, better: real, level: Level, isLargeText: bool)
    requires ratio <= better && MeetsContrastRequirement(ratio, level, isLargeText)
    ensures MeetsContrastRequirement(better, level, isLargeText)
  {
  }

  /** AAA is the stricter level, and large text is held to the laxer bar. */
  lemma LevelsAreNested(ratio: real, isLargeText: bool)
    ensures MeetsContrastRequirement(ratio, AAA, isLargeText) ==> MeetsContrastRequirement(ratio, AA, isLargeText)
    ensures MeetsContrastRequirement(ratio, AA, false) ==> MeetsContrastRequirement(ratio, AA, true)
    ensures MeetsContrastRequirement(ratio, AAA, false) ==> MeetsContrastRequirement(ratio, AAA, true)
    ensures MeetsContrastRequirement(ratio, AA, false) <==> MeetsContrastRequirement(ratio, AAA, true)
  {
  }

  datatype ContrastResult = ContrastResult(ratio: real, meetsAA: bool, meetsAAA: bool, isLargeText: bool)

  /** `analyzeContrast`: the ratio of the pair together with both verdicts on it. */
  function AnalyzeContrast(curve: PowerCurve, foreground: string, background: string, isLargeText: bool): (res: ContrastResult)
    ensures res.ratio == ContrastRatio(curve, foreground, background)
    ensures 1.0 <= res.ratio <= 21.0
    ensures res.meetsAA == MeetsContrastRequirement(res.ratio, AA, isLargeText)
    ensures res.meetsAAA == MeetsContrastRequirement(res.ratio, AAA, isLargeText)
    ensures res.meetsAAA ==> res.meetsAA
    ensures res.isLargeText == isLargeText
  {
    var ratio := ContrastRatio(curve, foreground, background);
    ContrastResult(ratio,
      MeetsContrastRequirement(ratio, AA, isLargeText),
      MeetsContrastRequirement(ratio, AAA, isLargeText),
      isLargeText)
  }

  // ------------------------------------------------------ gradient dominant colour

  /** `#` followed by six hex digits starts at `i`: a match of `/#[a-fA-F0-9]{6}/`. */
  predicate HexColorAt(s: string, i: nat) {
    i + 7 <= |s| && s[i] == '#' && AllHex(s[i + 1..i + 7])
  }

  datatype Triple = Triple(r: nat, g: nat, b: nat)

  predicate IsDigitOrDot(ch: char) {
    IsAsciiDigit(ch) || ch == '.'
  }

  /** `\s*(\d+)\s*` from `i`: the number's value and where the trailing spaces end. */
  function Component(s: string, i: nat): (res: Option<(nat, nat)>)
    requires i <= |s|
    ensures res.Some? ==> i < res.value.1 <= |s|
  {
    var q := SkipWhile(s, i, IsJsSpace);
    var e := SkipWhile(s, q, IsAsciiDigit);
    if e == q then None
    else Some((DecimalValue(s[q..e]), SkipWhile(s, e, IsJsSpace)))
  }

  /** A component written as decimal digits and followed by neither a digit nor a space reads back as its value. */
  lemma ComponentOfDecimal(s: string, i: nat, n: nat)
    requires var d := NatToDecimal(n);
      i + |d| < |s| && s[i..i + |d|] == d && !IsJsSpace(s[i + |d|]) && !IsAsciiDigit(s[i + |d|])
    ensures Component(s, i) == Some((n, i + |NatToDecimal(n)|))
  {
    var d := NatToDecimal(n);
    var e := i + |d|;
    assert forall k | i <= k < e :: s[k] == d[k - i];
    assert !IsJsSpace(s[i]) by { assert IsAsciiDigit(d[0]); }
    SkipWhileRun(s, i, i, IsJsSpace);
    SkipWhileRun(s, i, e, IsAsciiDigit);
    SkipWhileRun(s, e, e, IsJsSpace);
    DecimalRoundTrip(n);
  }

  /** `rgb(` hands over to the first component. */
  lemma MatchOpenStep(s: string, i: nat)
    requires i + 4 <= |s| && s[i] == 'r' && s[i + 1] == 'g' && s[i + 2] == 'b' && s[i + 3] == '('
    ensures MatchRgbAt(s, i) == MatchRedFrom(s, i + 4)
  {
    var open := if i + 3 < |s| && s[i + 3] == 'a' then i + 4 else i + 3;
    assert open == i + 3 && s[open] == '(';
  }

  /** `rgba(` hands over to the first component just as `rgb(` does. */
  lemma MatchOpenAlphaStep(s: string, i: nat)
    requires i + 5 <= |s| && s[i] == 'r' && s[i + 1] == 'g' && s[i + 2] == 'b' && s[i + 3] == 'a' && s[i + 4] == '('
    ensures MatchRgbAt(s, i) == MatchRedFrom(s, i + 5)
  {
    var open := if i + 3 < |s| && s[i + 3] == 'a' then i + 4 else i + 3;
    assert open == i + 4 && s[open] == '(';
  }

  /** A first component followed by a comma hands over to the second. */
  lemma MatchRedStep(s: string, p: nat)
    requires p <= |s| && Component(s, p).Some? && Component(s, p).value.1 < |s| && s[Component(s, p).value.1] == ','
    ensures MatchRedFrom(s, p) == MatchGreenFrom(s, Component(s, p).value.1 + 1, Component(s, p).value.0)
  {
  }

  /** A second component followed by a comma hands over to the third. */
  lemma MatchGreenStep(s: string, p: nat, r: nat)
    requires p <= |s| && Component(s, p).Some? && Component(s, p).value.1 < |s| && s[Component(s, p).value.1] == ','
    ensures MatchGreenFrom(s, p, r) == MatchBlueFrom(s, Component(s, p).value.1 + 1, r, Component(s, p).value.0)
  {
  }

  /** A third component followed by `)` completes the match with the three numbers read. */
  lemma MatchBlueStep(s: string, p: nat, r: nat, g: nat)
    requires p <= |s| && Component(s, p).Some? && Component(s, p).value.1 < |s| && s[Component(s, p).value.1] == ')'
    ensures MatchBlueFrom(s, p, r, g) == Some(Triple(r, g, Component(s, p).value.0))
  {
  }

  /**
   * A third component followed by a comma, a run of digits and dots, and `)`
   * completes the match too: the alpha value is read over and dropped.
   */
  lemma MatchAlphaStep(s: string, p: nat, r: nat, g: nat, k: nat)
    requires p <= |s| && Component(s, p).Some?
    requires Component(s, p).value.1 + 1 < k < |s| && s[Component(s, p).value.1] == ',' && s[k] == ')'
    requires forall j | Component(s, p).value.1 + 1 <= j < k :: IsDigitOrDot(s[j])
    ensures MatchBlueFrom(s, p, r, g) == Some(Triple(r, g, Component(s, p).value.0))
  {
    var p3 := Component(s, p).value.1;
    assert p3 < |s| && s[p3] != ')' && s[p3] == ',';
    AlphaRun(s, p3 + 1, k);
  }

  /** `\s*[\d.]+\s*\)` accepts a run of digits and dots closed by `)`. */
  lemma AlphaRun(s: string, a: nat, k: nat)
    requires a < k < |s| && s[k] == ')'
    requires forall j | a <= j < k :: IsDigitOrDot(s[j])
    ensures var q := SkipWhile(s, a, IsJsSpace);
      var e := SkipWhile(s, q, IsDigitOrDot);
      var t := SkipWhile(s, e, IsJsSpace);
      e > q && t < |s| && s[t] == ')'
  {
    assert !IsJsSpace(s[a]) by { assert IsDigitOrDot(s[a]); }
    SkipWhileRun(s, a, a, IsJsSpace);
    SkipWhileRun(s, a, k, IsDigitOrDot);
    SkipWhileRun(s, k, k, IsJsSpace);
  }

  /**
   * A match of `/rgba?\(\s*(\d+)\s*,\s*(\d+)\s*,\s*(\d+)\s*(?:,\s*[\d.]+)?\s*\)/`
   * starting at `i`, with its three numbers. The character classes of adjacent
   * pattern parts are disjoint, so greedy matching never needs to back up.
   */
  function MatchRgbAt(s: string, i: nat): Option<Triple> {
    if !(i + 3 <= |s| && s[i] == 'r' && s[i + 1] == 'g' && s[i + 2] == 'b') then None
    else
      var open := if i + 3 < |s| && s[i + 3] == 'a' then i + 4 else i + 3;
      if !(open < |s| && s[open] == '(') then None
      else MatchRedFrom(s, open + 1)
  }

  /** The rest of the match after `rgb(`: the first component and a comma. */
  function MatchRedFrom(s: string, p: nat): Option<Triple>
    requires p <= |s|
  {
    match Component(s, p)
    case None => None
    case Some((r, p1)) => if p1 < |s| && s[p1] == ',' then MatchGreenFrom(s, p1 + 1, r) else None
  }

  /** The rest of the match after `rgb(r,`: the second component and a comma. */
  function MatchGreenFrom(s: string, p: nat, r: nat): Option<Triple>
    requires p <= |s|
  {
    match Component(s, p)
    case None => None
    case Some((g, p2)) => if p2 < |s| && s[p2] == ',' then MatchBlueFrom(s, p2 + 1, r, g) else None
  }

  /** The rest of the match after `rgb(r,g,`: the third component, an optional alpha, and `)`. */
  function MatchBlueFrom(s: string, p: nat, r: nat, g: nat): Option<Triple>
    requires p <= |s|
  {
    match Component(s, p)
    case None => None
    case Some((b, p3)) =>
      if p3 < |s| && s[p3] == ')' then Some(Triple(r, g, b))
      else if p3 < |s| && s[p3] == ',' then
        var q := SkipWhile(s, p3 + 1, IsJsSpace);
        var e := SkipWhile(s, q, IsDigitOrDot);
        var t := SkipWhile(s, e, IsJsSpace);
        if e > q && t < |s| && s[t] == ')' then Some(Triple(r, g, b)) else None
      else None
  }

  /** Where the leftmost `#RRGGBB` of `s` starts, if any. */
  function FirstHexColor(s: string): Option<nat> {
    FirstIndex(|s|, (i: nat) => HexColorAt(s, i), 0)
  }

  /** Where the leftmost rgb()/rgba() match of `s` starts, if any. */
  function FirstRgbCall(s: string): Option<nat> {
    FirstIndex(|s|, (i: nat) => MatchRgbAt(s, i).Some?, 0)
  }

  /**
   * `getGradientDominantColor`: the leftmost `#RRGGBB` of the string; failing
   * that, the leftmost rgb()/rgba() triple written as lower-case hex; failing
   * that, mid-gray.
   */
  function GetGradientDominantColor(gradient: string): (c: string)
    ensures |c| >= 7 && c[0] == '#'
  {
    match FirstHexColor(gradient)
    case Some(k) => gradient[k..k + 7]
    case None =>
      match FirstRgbCall(gradient)
      case Some(k) =>
        var t := MatchRgbAt(gradient, k).value;
        FormatHex(t.r, t.g, t.b)
      case None => NeutralHex
  }

  /** The first branch: the leftmost hex colour wins, even over an rgb() call further left. */
  lemma DominantColorPrefersLeftmostHex(gradient: string, k: nat)
    requires HexColorAt(gradient, k)
    requires forall j | 0 <= j < k :: !HexColorAt(gradient, j)
    ensures GetGradientDominantColor(gradient) == gradient[k..k + 7]
  {
    var p := (i: nat) => HexColorAt(gradient, i);
    assert p(k);
    var f := FirstIndex(|gradient|, p, 0);
    assert f == FirstHexColor(gradient);
    assert f.Some? && f.value == k;
  }

  /** The second branch: with no hex colour, the leftmost rgb() triple, in hex. */
  lemma DominantColorFromRgb(gradient: string, k: nat)
    requires forall j | 0 <= j < |gradient| :: !HexColorAt(gradient, j)
    requires MatchRgbAt(gradient, k).Some?
    requires forall j | 0 <= j < k :: MatchRgbAt(gradient, j).None?
    ensures var t := MatchRgbAt(gradient, k).value;
      GetGradientDominantColor(gradient) == FormatHex(t.r, t.g, t.b)
  {
    assert k < |gradient|;
    var h := (i: nat) => HexColorAt(gradient, i);
    var f0 := FirstIndex(|gradient|, h, 0);
    assert f0 == FirstHexColor(gradient);
    assert f0.None?;
    var p := (i: nat) => MatchRgbAt(gradient, i).Some?;
    assert p(k);
    var f := FirstIndex(|gradient|, p, 0);
    assert f == FirstRgbCall(gradient);
    assert f.Some? && f.value == k;
  }

  /** The third branch: neither kind of colour yields mid-gray. */
  lemma DominantColorFallback(gradient: string)
    requires forall j | 0 <= j < |gradient| :: !HexColorAt(gradient, j) && MatchRgbAt(gradient, j).None?
    ensures GetGradientDominantColor(gradient) == NeutralHex
    ensures HexToRgb(GetGradientDominantColor(gradient)) == Some(Rgb(128, 128, 128))
  {
    assert FirstHexColor(gradient).None?;
    assert FirstRgbCall(gradient).None?;
    SixDigitsParse(NeutralHex, "808080");
  }

  /**
   * The dominant colour always reads back as a colour, except from an rgb()
   * call with a component above 255, whose hex form has too many digits.
   */
  lemma DominantColorParses(gradient: string)
    ensures var c := GetGradientDominantColor(gradient);
      HexToRgb(c).Some? || (FirstHexColor(gradient).None? && FirstRgbCall(gradient).Some?)
    ensures FirstHexColor(gradient).None? && FirstRgbCall(gradient).Some? ==>
      var t := MatchRgbAt(gradient, FirstRgbCall(gradient).value).value;
      t.r <= 255 && t.g <= 255 && t.b <= 255 ==>
        HexToRgb(GetGradientDominantColor(gradient)) == Some(Rgb(t.r, t.g, t.b))
  {
    match FirstHexColor(gradient)
    case Some(k) => DominantHexParses(gradient, k);
    case None =>
      match FirstRgbCall(gradient)
      case Some(k) => DominantRgbParses(gradient, k);
      case None => SixDigitsParse(NeutralHex, "808080");
  }

  lemma DominantHexParses(gradient: string, k: nat)
    requires FirstHexColor(gradient) == Some(k)
    ensures HexToRgb(GetGradientDominantColor(gradient)).Some?
  {
    var d := gradient[k + 1..k + 7];
    assert gradient[k..k + 7] == "#" + d;
    SixDigitsParse(gradient[k..k + 7], d);
  }

  lemma DominantRgbParses(gradient: string, k: nat)
    requires FirstHexColor(gradient).None? && FirstRgbCall(gradient) == Some(k)
    ensures var t := MatchRgbAt(gradient, k).value;
      t.r <= 255 && t.g <= 255 && t.b <= 255 ==>
        HexToRgb(GetGradientDominantColor(gradient)) == Some(Rgb(t.r, t.g, t.b))
  {
    var t := MatchRgbAt(gradient, k).value;
    if t.r <= 255 && t.g <= 255 && t.b <= 255 {
      FormatHexRoundTrip(t.r, t.g, t.b);
    }
  }

  // -------------------------------------------------------------- text colour

  /**
   * `isLightColor`: luminance strictly above one half. Equivalently, black
   * text contrasts with the colour by more than 11.
   */
  predicate IsLightColor(curve: PowerCurve, color: string)
    ensures IsLightColor(curve, color) <==> ContrastRatio(curve, BlackHex, color) > 11.0
  {
    BlackContrast(curve, color);
    CalculateLuminance(curve, color) > 0.5
  }

  /** `getOptimalTextColor`: white or black, whichever contrasts more; a tie goes to black. */
  function GetOptimalTextColor(curve: PowerCurve, background: string): (t: string)
    ensures t == WhiteHex || t == BlackHex
    ensures ContrastRatio(curve, t, background) >= ContrastRatio(curve, WhiteHex, background)
    ensures ContrastRatio(curve, t, background) >= ContrastRatio(curve, BlackHex, background)
    ensures t == WhiteHex <==> ContrastRatio(curve, WhiteHex, background) > ContrastRatio(curve, BlackHex, background)
  {
    var whiteContrast := ContrastRatio(curve, WhiteHex, background);
    var blackContrast := ContrastRatio(curve, BlackHex, background);
    if whiteContrast > blackContrast then WhiteHex else BlackHex
  }

  /**
   * The better of white and black always clears 4.5, the AA bar for normal
   * text: the two ratios multiply to 21, and 4.5 * 4.5 < 21.
   */
  lemma OptimalTextMeetsAA(curve: PowerCurve, background: string)
    ensures ContrastRatio(curve, GetOptimalTextColor(curve, background), background) >= 4.5
    ensures MeetsContrastRequirement(ContrastRatio(curve, GetOptimalTextColor(curve, background), background), AA, false)
  {
    var l := CalculateLuminance(curve, background);
    WhiteContrast(curve, background);
    BlackContrast(curve, background);
    BetterOfPairAtLeast(l + 0.05);
  }

  /** On a light background (luminance above 1/2) black text is always chosen. */
  lemma LightBackgroundGetsBlackText(curve: PowerCurve, background: string)
    requires IsLightColor(curve, background)
    ensures GetOptimalTextColor(curve, background) == BlackHex
  {
    var l := CalculateLuminance(curve, background);
    WhiteContrast(curve, background);
    BlackContrast(curve, background);
    PairAboveHalf(l + 0.05);
  }
}

=== FILE: color_data.dfy ===
/**
 * The static tables of src/utils/smartColorSelection.ts: the gradient catalog,
 * the three CTA palettes, the candidate text tones and the hand-typed
 * fast-remix colour sets. They are data only; in particular the ratios stored
 * in the fast-remix table are literals that nothing recomputes or checks.
 */
module ColorData {

  /** The per-pair figures stored with a colour set; `ctaTextToCta` is the colour of the text on the CTA button. */
  datatype ContrastRatios = ContrastRatios(
    textToBackground: real,
    headingToBackground: real,
    ctaToBg: real,
    ctaTextToCta: string)

  /** `ColorSet`: a background gradient and the colours chosen to sit on it. */
  datatype ColorSet = ColorSet(
    gradient: string,
    ctaColor: string,
    textColor: string,
    headingColor: string,
    contrastRatios: ContrastRatios)

  /** `GRADIENTS`, in source order (duplicates included). */
  const Gradients: seq<string> := [
    "linear-gradient(135deg, #98FB98 0%, #32CD32 100%)",
    "linear-gradient(135deg, #40E0D0 0%, #48D1CC 100%)",
    "linear-gradient(135deg, #DDA0DD 0%, #EE82EE 100%)",
    "linear-gradient(135deg, #E6E6FA 0%, #9370DB 100%)",
    "linear-gradient(135deg, #FFA500 0%, #FF8C00 100%)",
    "linear-gradient(135deg, #800080 0%, #4B0082 100%)",
    "linear-gradient(135deg, #87CEEB 0%, #1E90FF 100%)",
    "linear-gradient(135deg, #FFB6C1 0%, #FF69B4 100%)",
    "linear-gradient(135deg, #FFC0CB 0%, #FF69B4 100%)",
    "linear-gradient(135deg, #8B4513 0%, #A0522D 100%)",
    "linear-gradient(135deg, #800080 0%, #4B0082 100%)",
    "linear-gradient(135deg, #E6E6FA 0%, #DDA0DD 100%)",
    "linear-gradient(135deg, #98FB98 0%, #90EE90 100%)",
    "linear-gradient(135deg, #90EE90 0%, #32CD32 100%)",
    "linear-gradient(135deg, #87CEEB 0%, #00BFFF 100%)",
    "linear-gradient(135deg, #E6E6FA 0%, #9370DB 100%)",
    "linear-gradient(135deg, #FFA07A 0%, #FF7F50 100%)",
    "linear-gradient(135deg, #9400D3 0%, #800080 100%)",
    "linear-gradient(135deg, #87CEEB 0%, #1E90FF 100%)",
    "linear-gradient(135deg, #FFB6C1 0%, #FF69B4 100%)",
    "linear-gradient(135deg, #FFA07A 0%, #FF7F50 100%)",
    "linear-gradient(135deg, #8B4513 0%, #A0522D 100%)",
    "linear-gradient(135deg, #9400D3 0%, #800080 100%)",
    "linear-gradient(135deg, #DCDCDC 0%, #A9A9A9 100%)",
    "linear-gradient(135deg, #E0FFFF 0%, #B0E0E6 100%)",
    "linear-gradient(135deg, #98FB98 0%, #90EE90 100%)",
    "linear-gradient(135deg, #DDA0DD 0%, #BA55D3 100%)",
    "linear-gradient(135deg, #E6E6FA 0%, #DDA0DD 100%)",
    "linear-gradient(135deg, #FF6347 0%, #FF4500 100%)",
    "linear-gradient(135deg, #9400D3 0%, #8B008B 100%)",
    "linear-gradient(135deg, #E0FFFF 0%, #AFEEEE 100%)",
    "linear-gradient(135deg, #FFDAB9 0%, #FFE4B5 100%)",
    "linear-gradient(135deg, #FFDAB9 0%, #FFE4B5 100%)",
    "linear-gradient(135deg, #2F4F4F 0%, #000080 100%)",
    "linear-gradient(135deg, #9400D3 0%, #800080 100%)",
    "linear-gradient(135deg, #FFB6C1 0%, #FF69B4 100%)",
    "linear-gradient(135deg, #F0FFF0 0%, #98FB98 100%)",
    "linear-gradient(135deg, #98FB98 0%, #32CD32 100%)",
    "linear-gradient(135deg, #DDA0DD 0%, #BA55D3 100%)",
    "linear-gradient(135deg, #E6E6FA 0%, #DDA0DD 100%)",
    "linear-gradient(135deg, #FF6347 0%, #FF4500 100%)",
    "linear-gradient(135deg, #4169E1 0%, #0000CD 100%)",
    "linear-gradient(135deg, #E0FFFF 0%, #B0E0E6 100%)",
    "linear-gradient(135deg, #FFDAB9 0%, #FFE4B5 100%)",
    "linear-gradient(135deg, #FFDAB9 0%, #FFE4B5 100%)",
    "linear-gradient(135deg, #2F4F4F 0%, #000080 100%)",
    "linear-gradient(135deg, #9400D3 0%, #800080 100%)",
    "linear-gradient(135deg, #008B8B 0%, #006400 100%)",
    "linear-gradient(135deg, #FFD700 0%, #FFA500 100%)",
    "linear-gradient(135deg, #90EE90 0%, #32CD32 100%)",
    "linear-gradient(135deg, #FFB6C1 0%, #FF69B4 100%)",
    "linear-gradient(135deg, #DDA0DD 0%, #BA55D3 100%)",
    "linear-gradient(135deg, #FF6347 0%, #FF4500 100%)",
    "linear-gradient(135deg, #9400D3 0%, #800080 100%)",
    "linear-gradient(135deg, #E0FFFF 0%, #B0E0E6 100%)",
    "linear-gradient(135deg, #FFDAB9 0%, #FFE4B5 100%)",
    "linear-gradient(135deg, #FFDAB9 0%, #FFE4B5 100%)",
    "linear-gradient(135deg, #2F4F4F 0%, #000080 100%)",
    "linear-gradient(135deg, #9400D3 0%, #800080 100%)",
    "linear-gradient(135deg, #FF69B4 0%, #FF1493 100%)",
    "linear-gradient(135deg, #FFB6C1 0%, #FFC0CB 100%)",
    "linear-gradient(135deg, #E0FFFF 0%, #B0E0E6 100%)",
    "linear-gradient(135deg, #FFA500 0%, #FF8C00 100%)",
    "linear-gradient(135deg, #DDA0DD 0%, #BA55D3 100%)",
    "linear-gradient(135deg, #E0FFFF 0%, #B0E0E6 100%)",
    "linear-gradient(135deg, #E6E6FA 0%, #DDA0DD 100%)",
    "linear-gradient(135deg, #E6E6FA 0%, #DDA0DD 100%)",
    "linear-gradient(135deg, #E6E6FA 0%, #DDA0DD 100%)",
    "linear-gradient(135deg, #DDA0DD 0%, #BA55D3 100%)",
    "linear-gradient(135deg, #F0FFFF 0%, #E0FFFF 100%)",
    "linear-gradient(135deg, #9400D3 0%, #800080 100%)"
  ]

  /** CTA colours for dark backgrounds. */
  const LightCtaColors: seq<string> := ["#FFD700", "#FFA500", "#FF6B35", "#F7931E"]
  /** CTA colours for light backgrounds. */
  const DarkCtaColors: seq<string> := ["#1E90FF", "#32CD32", "#9370DB", "#00CED1"]
  /** The second-pass CTA colours. */
  const MidCtaColors: seq<string> := ["#FF1493", "#FF4500", "#4169E1", "#228B22"]

  /** The seven candidate text colours, in the order the text-colour chooser lists them. */
  const TextTones: seq<string> := ["#FFFFFF", "#000000", "#1A1A1A", "#F5F5F5", "#666666", "#E5E5E5", "#2D2D2D"]

  /** `FAST_REMIX_COMBINATIONS`, in source order. */
  const FastRemixCombinations: seq<ColorSet> := [
    ColorSet("linear-gradient(135deg, #98FB98 0%, #32CD32 100%)",
      "#1A1A1A", "#000000", "#1A1A1A",
      ContrastRatios(7.8, 8.2, 7.1, "#FFFFFF")),
    ColorSet("linear-gradient(135deg, #40E0D0 0%, #48D1CC 100%)",
      "#1A1A1A", "#000000", "#1A1A1A",
      ContrastRatios(6.9, 7.4, 6.5, "#FFFFFF")),
    ColorSet("linear-gradient(135deg, #800080 0%, #4B0082 100%)",
      "#FFD700", "#FFFFFF", "#FFFFFF",
      ContrastRatios(6.8, 6.8, 5.2, "#000000")),
    ColorSet("linear-gradient(135deg, #FFA500 0%, #FF8C00 100%)",
      "#1A1A1A", "#000000", "#1A1A1A",
      ContrastRatios(5.8, 6.2, 5.4, "#FFFFFF")),
    ColorSet("linear-gradient(135deg, #87CEEB 0%, #1E90FF 100%)",
      "#FFFFFF", "#000000", "#1A1A1A",
      ContrastRatios(6.5, 7.1, 5.8, "#000000")),
    ColorSet("linear-gradient(135deg, #FFB6C1 0%, #FF69B4 100%)",
      "#1A1A1A", "#000000", "#1A1A1A",
      ContrastRatios(5.9, 6.4, 5.6, "#FFFFFF")),
    ColorSet("linear-gradient(135deg, #8B4513 0%, #A0522D 100%)",
      "#FFD700", "#FFFFFF", "#FFFFFF",
      ContrastRatios(7.2, 7.2, 5.8, "#000000")),
    ColorSet("linear-gradient(135deg, #E6E6FA 0%, #DDA0DD 100%)",
      "#1A1A1A", "#1A1A1A", "#000000",
      ContrastRatios(8.1, 9.2, 7.8, "#FFFFFF")),
    ColorSet("linear-gradient(135deg, #9400D3 0%, #800080 100%)",
      "#FFFFFF", "#FFFFFF", "#FFFFFF",
      ContrastRatios(6.9, 6.9, 6.2, "#000000")),
    ColorSet("linear-gradient(135deg, #FFA07A 0%, #FF7F50 100%)",
      "#1A1A1A", "#000000", "#1A1A1A",
      ContrastRatios(6.1, 6.7, 5.9, "#FFFFFF")),
    ColorSet("linear-gradient(135deg, #DCDCDC 0%, #A9A9A9 100%)",
      "#1A1A1A", "#1A1A1A", "#000000",
      ContrastRatios(7.9, 8.8, 7.5, "#FFFFFF")),
    ColorSet("linear-gradient(135deg, #FF6347 0%, #FF4500 100%)",
      "#FFFFFF", "#FFFFFF", "#FFFFFF",
      ContrastRatios(5.8, 5.8, 5.2, "#000000")),
    ColorSet("linear-gradient(135deg, #2F4F4F 0%, #000080 100%)",
      "#FFD700", "#FFFFFF", "#FFFFFF",
      ContrastRatios(8.9, 8.9, 6.8, "#000000")),
    ColorSet("linear-gradient(135deg, #008B8B 0%, #006400 100%)",
      "#FFFFFF", "#FFFFFF", "#FFFFFF",
      ContrastRatios(7.1, 7.1, 6.4, "#000000")),
    ColorSet("linear-gradient(135deg, #FFD700 0%, #FFA500 100%)",
      "#1A1A1A", "#000000", "#1A1A1A",
      ContrastRatios(6.8, 7.3, 6.2, "#FFFFFF")),
    ColorSet("linear-gradient(135deg, #FF69B4 0%, #FF1493 100%)",
      "#FFFFFF", "#FFFFFF", "#FFFFFF",
      ContrastRatios(5.6, 5.6, 5.1, "#000000")),
    ColorSet("linear-gradient(135deg, #4169E1 0%, #0000CD 100%)",
      "#FFD700", "#FFFFFF", "#FFFFFF",
      ContrastRatios(7.8, 7.8, 6.1, "#000000")),
    ColorSet("linear-gradient(135deg, #E0FFFF 0%, #B0E0E6 100%)",
      "#1A1A1A", "#1A1A1A", "#000000",
      ContrastRatios(8.4, 9.1, 8.0, "#FFFFFF")),
    ColorSet("linear-gradient(135deg, #F0FFF0 0%, #98FB98 100%)",
      "#1A1A1A", "#1A1A1A", "#000000",
      ContrastRatios(8.6, 9.4, 8.2, "#FFFFFF")),
    ColorSet("linear-gradient(135deg, #FFDAB9 0%, #FFE4B5 100%)",
      "#1A1A1A", "#1A1A1A", "#000000",
      ContrastRatios(7.6, 8.3, 7.2, "#FFFFFF"))
  ]
}

=== FILE: gradients.dfy ===
/**
 * The gradient helpers of src/utils/gradients.ts: a gamma-free luminance read
 * straight off the hex digits, a dark/light test, a random pick and the CSS
 * background string.
 */
module Gradients {
  import opened Options
  import opened JsText
  import opened Selection
  import ColorContrast

  datatype GradientColor = GradientColor(name: string, kind: string, colors: seq<string>)

  /** A gradient catalogue entry under its key. */
  datatype Keyed = Keyed(key: string, gradient: GradientColor)

  /** The catalogue, in the order `Object.values` lists it. */
  datatype GradientData = GradientData(gradients: seq<Keyed>)

  /** `Object.values(gradients.gradients)`. */
  function Values(d: GradientData): (vs: seq<GradientColor>)
    ensures |vs| == |d.gradients|
    ensures forall i | 0 <= i < |vs| :: vs[i] == d.gradients[i].gradient
  {
    seq(|d.gradients|, i requires 0 <= i < |d.gradients| => d.gradients[i].gradient)
  }

  /** The linear weighted sum of three channel values scaled to [0, 1]. */
  function LinearLuminance(r: int, g: int, b: int): real {
    0.2126 * (r as real / 255.0) + 0.7152 * (g as real / 255.0) + 0.0722 * (b as real / 255.0)
  }

  /**
   * `getLuminance`: remove the first `#`, then read channels from the
   * two-character groups at 0, 2 and 4 with `parseInt(…, 16)`. `None` is NaN:
   * some group held no leading hex digit.
   */
  function GetLuminance(hexColor: string): (l: Option<real>)
  {
    var hex := RemoveFirst(hexColor, '#');
    match (ParseIntHex(Substr(hex, 0, 2)), ParseIntHex(Substr(hex, 2, 2)), ParseIntHex(Substr(hex, 4, 2)))
    case (Some(r), Some(g), Some(b)) => Some(LinearLuminance(r, g, b))
    case _ => None
  }

  /** A `#RRGGBB` colour reads as the weighted sum of its three bytes, a value in [0, 1]. */
  lemma LuminanceOfSixDigits(hexColor: string, digits: string)
    requires hexColor == "#" + digits && |digits| == 6 && AllHex(digits)
    ensures var r := ByteValue(digits[0], digits[1]);
      var g := ByteValue(digits[2], digits[3]);
      var b := ByteValue(digits[4], digits[5]);
      && GetLuminance(hexColor) == Some(LinearLuminance(r, g, b))
      && 0.0 <= LinearLuminance(r, g, b) <= 1.0
  {
    assert '#' in hexColor by { assert hexColor[0] == '#'; }
    assert IndexOf(hexColor, '#') == 0;
    assert RemoveFirst(hexColor, '#') == digits;
    assert Substr(digits, 0, 2) == [digits[0], digits[1]];
    assert Substr(digits, 2, 2) == [digits[2], digits[3]];
    assert Substr(digits, 4, 2) == [digits[4], digits[5]];
    ParseIntHexPair(Substr(digits, 0, 2));
    ParseIntHexPair(Substr(digits, 2, 2));
    ParseIntHexPair(Substr(digits, 4, 2));
    LinearLuminanceBounds(ByteValue(digits[0], digits[1]), ByteValue(digits[2], digits[3]), ByteValue(digits[4], digits[5]));
  }

  lemma LinearLuminanceBounds(r: int, g: int, b: int)
    requires 0 <= r <= 255 && 0 <= g <= 255 && 0 <= b <= 255
    ensures 0.0 <= LinearLuminance(r, g, b) <= 1.0
    ensures LinearLuminance(r, g, b) == 1.0 <==> r == 255 && g == 255 && b == 255
    ensures LinearLuminance(r, g, b) == 0.0 <==> r == 0 && g == 0 && b == 0
  {
  }

  /** The weights sum to 1: `#FFFFFF` (in either case) reads 1, and `#000000` reads 0. */
  lemma WhiteAndBlackLuminance(hexColor: string, digits: string)
    requires hexColor == "#" + digits && |digits| == 6
    ensures (forall i | 0 <= i < 6 :: digits[i] == 'F' || digits[i] == 'f') ==> GetLuminance(hexColor) == Some(1.0)
    ensures (forall i | 0 <= i < 6 :: digits[i] == '0') ==> GetLuminance(hexColor) == Some(0.0)
  {
    if forall i | 0 <= i < 6 :: digits[i] == 'F' || digits[i] == 'f' {
      assert AllHex(digits);
      assert ByteValue(digits[0], digits[1]) == 255 && ByteValue(digits[2], digits[3]) == 255;
      assert ByteValue(digits[4], digits[5]) == 255;
      LuminanceOfSixDigits(hexColor, digits);
      LinearLuminanceBounds(255, 255, 255);
    }
    if forall i | 0 <= i < 6 :: digits[i] == '0' {
      assert AllHex(digits);
      assert ByteValue(digits[0], digits[1]) == 0 && ByteValue(digits[2], digits[3]) == 0;
      assert ByteValue(digits[4], digits[5]) == 0;
      LuminanceOfSixDigits(hexColor, digits);
      LinearLuminanceBounds(0, 0, 0);
    }
  }

  /** A `#RGB` shorthand colour is NaN: its third group is empty. */
  lemma ShorthandIsNaN(hexColor: string, digits: string)
    requires hexColor == "#" + digits && |digits| == 3 && AllHex(digits)
    ensures GetLuminance(hexColor).None?
  {
    assert '#' in hexColor by { assert hexColor[0] == '#'; }
    assert IndexOf(hexColor, '#') == 0;
    assert RemoveFirst(hexColor, '#') == digits;
    ParseIntHexShort(Substr(digits, 4, 2));
  }

  /**
   * `isGradientDark`: the mean luminance of the first two colours is below
   * 0.5. A NaN luminance makes the comparison false. `None` is the TypeError
   * the source raises when a gradient has fewer than two colours.
   */
  function IsGradientDark(gradient: GradientColor): (dark: Option<bool>)
    ensures dark.None? <==> |gradient.colors| < 2
  {
    if |gradient.colors| < 2 then None
    else
      match (GetLuminance(gradient.colors[0]), GetLuminance(gradient.colors[1]))
      case (Some(l1), Some(l2)) => Some(MeanBelowHalf(l1, l2))
      case _ => Some(false)
  }

  /** The average of two luminances is below one half. */
  predicate MeanBelowHalf(l1: real, l2: real) {
    (l1 + l2) / 2.0 < 0.5
  }

  /** When both luminances are numbers, dark means they sum to less than 1. */
  lemma IsGradientDarkOfNumbers(gradient: GradientColor)
    requires |gradient.colors| >= 2
    requires GetLuminance(gradient.colors[0]).Some? && GetLuminance(gradient.colors[1]).Some?
    ensures var l1 := GetLuminance(gradient.colors[0]).value;
      var l2 := GetLuminance(gradient.colors[1]).value;
      IsGradientDark(gradient) == Some(l1 + l2 < 1.0)
  {
    var l1 := GetLuminance(gradient.colors[0]).value;
    var l2 := GetLuminance(gradient.colors[1]).value;
    assert IsGradientDark(gradient) == Some(MeanBelowHalf(l1, l2));
    assert MeanBelowHalf(l1, l2) <==> l1 + l2 < 1.0;
  }

  /** A NaN luminance on either side makes the gradient light. */
  lemma NaNIsNotDark(gradient: GradientColor)
    requires |gradient.colors| >= 2
    requires GetLuminance(gradient.colors[0]).None? || GetLuminance(gradient.colors[1]).None?
    ensures IsGradientDark(gradient) == Some(false)
  {
  }

  /** For two `#RRGGBB` colours the test never meets NaN. */
  lemma IsGradientDarkOfHexColors(gradient: GradientColor, d1: string, d2: string)
    requires |gradient.colors| >= 2
    requires gradient.colors[0] == "#" + d1 && |d1| == 6 && AllHex(d1)
    requires gradient.colors[1] == "#" + d2 && |d2| == 6 && AllHex(d2)
    ensures GetLuminance(gradient.colors[0]).Some? && GetLuminance(gradient.colors[1]).Some?
    ensures IsGradientDark(gradient).Some?
  {
    LuminanceOfSixDigits(gradient.colors[0], d1);
    LuminanceOfSixDigits(gradient.colors[1], d2);
  }

  /** A gradient starting from white (`#FFFFFF` in either case) is never dark when its second colour is a `#RRGGBB` colour. */
  lemma WhiteStartIsLight(gradient: GradientColor, d1: string, d2: string)
    requires |gradient.colors| >= 2
    requires gradient.colors[0] == "#" + d1 && |d1| == 6 && forall i | 0 <= i < 6 :: d1[i] == 'F' || d1[i] == 'f'
    requires gradient.colors[1] == "#" + d2 && |d2| == 6 && AllHex(d2)
    ensures IsGradientDark(gradient) == Some(false)
  {
    WhiteAndBlackLuminance(gradient.colors[0], d1);
    LuminanceOfSixDigits(gradient.colors[1], d2);
    IsGradientDarkOfNumbers(gradient);
  }

  /** `getRandomGradient`: null for an empty catalogue, else the value `draw` picks. */
  function GetRandomGradient(d: GradientData, draw: RandomDraw): (g: Option<GradientColor>)
    ensures g.None? <==> |d.gradients| == 0
    ensures g.Some? ==> exists i :: 0 <= i < |d.gradients| && d.gradients[i].gradient == g.value
  {
    var list := Values(d);
    if |list| == 0 then None
    else Some(list[RandomIndex(draw, |list|)])
  }

  /** The fallback background when no gradient is given. */
  const DefaultBackground: string := "linear-gradient(to right, #f3f4f6, #e5e7eb)"

  const StylePrefix: string := "linear-gradient(to right, "

  /** A template-literal interpolation of `colors[i]`: `undefined` past the end. */
  function ColorText(colors: seq<string>, i: nat): string {
    if i < |colors| then colors[i] else "undefined"
  }

  /** `generateGradientStyle`: the CSS `background` of a gradient, or the default. */
  function GenerateGradientStyle(gradient: Option<GradientColor>): (background: string)
    ensures gradient.None? ==> background == DefaultBackground
    ensures gradient.Some? ==> |background| > |StylePrefix| && background[..|StylePrefix|] == StylePrefix && background[|background| - 1] == ')'
    ensures gradient.Some? ==>
      var c1, c2 := ColorText(gradient.value.colors, 0), ColorText(gradient.value.colors, 1);
      var n := |StylePrefix|;
      && |background| == n + |c1| + 2 + |c2| + 1
      && background[n..n + |c1|] == c1
      && background[n + |c1|..n + |c1| + 2] == ", "
      && background[n + |c1| + 2..|background| - 1] == c2
  {
    if gradient.None? then DefaultBackground
    else StylePrefix + ColorText(gradient.value.colors, 0) + ", " + ColorText(gradient.value.colors, 1) + ")"
  }

  /**
   * Styling and reading back agree: the dominant colour the contrast engine
   * finds in a generated background is the gradient's first colour, whenever
   * that is a `#RRGGBB` colour.
   */
  lemma StyleDominantColorIsFirst(gradient: GradientColor, d1: string)
    requires |gradient.colors| >= 1 && gradient.colors[0] == "#" + d1 && |d1| == 6 && AllHex(d1)
    ensures ColorContrast.GetGradientDominantColor(GenerateGradientStyle(Some(gradient))) == gradient.colors[0]
  {
    var s := GenerateGradientStyle(Some(gradient));
    var n := |StylePrefix|;
    assert s[n..n + 7] == gradient.colors[0];
    assert ColorContrast.HexColorAt(s, n);
    forall j | 0 <= j < n ensures !ColorContrast.HexColorAt(s, j) {
      assert s[j] == StylePrefix[j];
    }
    ColorContrast.DominantColorPrefersLeftmostHex(s, n);
  }

  /** The default background reads back as its first colour, `#f3f4f6`. */
  lemma DefaultStyleDominantColor()
    ensures ColorContrast.GetGradientDominantColor(GenerateGradientStyle(None)) == "#f3f4f6"
  {
    var s := DefaultBackground;
    var n := |StylePrefix|;
    assert s[n..n + 7] == "#f3f4f6";
    assert AllHex("f3f4f6");
    assert ColorContrast.HexColorAt(s, n);
    forall j | 0 <= j < n ensures !ColorContrast.HexColorAt(s, j) {
      assert s[j] == StylePrefix[j];
    }
    ColorContrast.DominantColorPrefersLeftmostHex(s, n);
  }
}

=== FILE: js_text.dfy ===
/**
 * The slice of JavaScript string and number behaviour the colour code relies on:
 * character classes of its regular expressions, `String.prototype.replace` with a
 * string pattern, `substr`, `parseInt`, `Number.prototype.toString(16)` and `padStart`.
 * Strings are `seq<char>`: Unicode scalar values, not UTF-16 code units. The
 * regular-expression classes and `replace` below behave the same on both, since
 * every character they look for is a single code unit; `Substr` does not, as its
 * indices count scalar values.
 */
module JsText {
  import opened Options

  /** `\d` of a regular expression without the `u` flag: the ASCII digits only. */
  predicate IsAsciiDigit(ch: char) {
    '0' <= ch <= '9'
  }

  /** `[a-fA-F0-9]`, which is also what `[a-f\d]` means under the `i` flag. */
  predicate IsHexDigit(ch: char) {
    IsAsciiDigit(ch) || 'a' <= ch <= 'f' || 'A' <= ch <= 'F'
  }

  /** `\s`: the ECMAScript WhiteSpace and LineTerminator code points. */
  predicate IsJsSpace(ch: char) {
    || ch == '\t' || ch == '\n' || ch == '\U{B}' || ch == '\U{C}' || ch == '\r' || ch == ' '
    || ch == '\U{A0}' || ch == '\U{1680}' || '\U{2000}' <= ch <= '\U{200A}'
    || ch == '\U{2028}' || ch == '\U{2029}' || ch == '\U{202F}' || ch == '\U{205F}'
    || ch == '\U{3000}' || ch == '\U{FEFF}'
  }

  predicate AllHex(s: string) {
    forall i | 0 <= i < |s| :: IsHexDigit(s[i])
  }

  /** No upper-case hex letter: what `toString(16)` writes is lower-case. */
  predicate NoUpperHex(s: string) {
    forall i | 0 <= i < |s| :: !('A' <= s[i] <= 'F')
  }

  function HexDigitValue(ch: char): (v: nat)
    requires IsHexDigit(ch)
    ensures v < 16
  {
    if IsAsciiDigit(ch) then ch as int - '0' as int
    else if 'a' <= ch <= 'f' then ch as int - 'a' as int + 10
    else ch as int - 'A' as int + 10
  }

  /** The lower-case digit `Number.prototype.toString(16)` writes for `d`. */
  function HexChar(d: nat): (ch: char)
    requires d < 16
    ensures IsHexDigit(ch) && HexDigitValue(ch) == d
    ensures !('A' <= ch <= 'F')
  {
    if d < 10 then ('0' as int + d) as char else ('a' as int + d - 10) as char
  }

  /** `parseInt` of a two-hex-digit group. */
  function ByteValue(hi: char, lo: char): (v: nat)
    requires IsHexDigit(hi) && IsHexDigit(lo)
    ensures v <= 255
  {
    16 * HexDigitValue(hi) + HexDigitValue(lo)
  }

  /** The value of a run of decimal digits, most significant first (`parseInt(s)`, radix 10). */
  function DecimalValue(s: string): nat
    requires forall i | 0 <= i < |s| :: IsAsciiDigit(s[i])
  {
    if |s| == 0 then 0
    else
      assert IsAsciiDigit(s[|s| - 1]);
      10 * DecimalValue(s[..|s| - 1]) + (s[|s| - 1] as int - '0' as int)
  }

  /** `n.toString()`: decimal digits without leading zeros, "0" for zero. */
  function NatToDecimal(n: nat): (s: string)
    ensures 1 <= |s|
    ensures forall i | 0 <= i < |s| :: IsAsciiDigit(s[i])
    ensures n < 10 <==> |s| == 1
    decreases n
  {
    if n < 10 then [('0' as int + n) as char] else NatToDecimal(n / 10) + [('0' as int + n % 10) as char]
  }

  /** Reading back the decimal digits `n.toString()` writes gives `n`. */
  lemma {:induction false} DecimalRoundTrip(n: nat)
    ensures DecimalValue(NatToDecimal(n)) == n
    decreases n
  {
    var s := NatToDecimal(n);
    if n < 10 {
      assert s[..0] == [];
    } else {
      DecimalRoundTrip(n / 10);
      assert s[..|s| - 1] == NatToDecimal(n / 10);
    }
  }

  /** `n.toString(16)`: lower-case digits without leading zeros, "0" for zero. */
  function NatToHex(n: nat): (s: string)
    ensures 1 <= |s| && AllHex(s)
    ensures n < 16 <==> |s| == 1
    ensures NoUpperHex(s)
  {
    if n < 16 then [HexChar(n)] else NatToHex(n / 16) + [HexChar(n % 16)]
  }

  /** `s.padStart(2, '0')`. */
  function PadStart2(s: string): (r: string)
    ensures |s| >= 2 ==> r == s
    ensures |s| < 2 ==> |r| == 2 && r[2 - |s|..] == s && forall i | 0 <= i < 2 - |s| :: r[i] == '0'
    decreases 2 - |s|
  {
    if |s| >= 2 then s else PadStart2("0" + s)
  }

  /** The two lower-case digits `n.toString(16).padStart(2, '0')` writes for a byte, read back by `ByteValue`. */
  lemma {:induction false} ByteHexRoundTrip(n: nat)
    requires n <= 255
    ensures var s := PadStart2(NatToHex(n));
      |s| == 2 && IsHexDigit(s[0]) && IsHexDigit(s[1]) && ByteValue(s[0], s[1]) == n
    ensures NoUpperHex(PadStart2(NatToHex(n)))
  {
    if n < 16 {
      assert NatToHex(n) == [HexChar(n)];
      assert PadStart2([HexChar(n)]) == "0" + [HexChar(n)];
    } else {
      assert NatToHex(n / 16) == [HexChar(n / 16)];
      assert NatToHex(n) == [HexChar(n / 16), HexChar(n % 16)];
    }
  }

  /** The position of the first `ch` in `s`, or `|s|` when there is none. */
  function IndexOf(s: string, ch: char): (i: nat)
    ensures i <= |s|
    ensures i < |s| ==> s[i] == ch
    ensures ch !in s[..i]
    ensures i == |s| <==> ch !in s
  {
    if |s| == 0 then 0
    else if s[0] == ch then 0
    else
      var j := IndexOf(s[1..], ch);
      assert s[..j + 1] == [s[0]] + s[1..][..j];
      j + 1
  }

  /**
   * `s.replace(ch, "")` with a one-character string pattern: only the FIRST
   * occurrence of `ch` is removed, wherever it is.
   */
  function RemoveFirst(s: string, ch: char): (r: string)
    ensures ch !in s ==> r == s
    ensures ch in s ==> |r| == |s| - 1
    ensures ch in s ==> exists i :: 0 <= i < |s| && s[i] == ch && ch !in s[..i] && r == s[..i] + s[i + 1..]
  {
    var i := IndexOf(s, ch);
    if i == |s| then s else s[..i] + s[i + 1..]
  }

  /** `s.split('').map(c => c + c).join('')`. */
  function DoubleEach(s: string): (r: string)
    ensures |r| == 2 * |s|
    ensures forall i | 0 <= i < |s| :: r[2 * i] == s[i] && r[2 * i + 1] == s[i]
  {
    if |s| == 0 then [] else [s[0], s[0]] + DoubleEach(s[1..])
  }

  /** `s.substr(start, len)` for non-negative arguments: clamped to the end of `s`. */
  function Substr(s: string, start: nat, len: nat): (r: string)
    ensures start + len <= |s| ==> r == s[start..start + len]
    ensures start < |s| < start + len ==> r == s[start..]
    ensures start >= |s| ==> r == []
    ensures |r| <= len
  {
    var a := if start <= |s| then start else |s|;
    var b := if start + len <= |s| then start + len else |s|;
    s[a..b]
  }

  /** The first index at or after `i` whose character fails `p` (or `|s|`): what a greedy `p*` consumes. */
  function SkipWhile(s: string, i: nat, p: char -> bool): (j: nat)
    requires i <= |s|
    ensures i <= j <= |s|
    ensures forall k | i <= k < j :: p(s[k])
    ensures j < |s| ==> !p(s[j])
    decreases |s| - i
  {
    if i < |s| && p(s[i]) then SkipWhile(s, i + 1, p) else i
  }

  /** A greedy `p*` from `i` stops exactly where a run of `p`-characters ends. */
  lemma {:induction false} SkipWhileRun(s: string, i: nat, j: nat, p: char -> bool)
    requires i <= j <= |s|
    requires forall k | i <= k < j :: p(s[k])
    requires j < |s| ==> !p(s[j])
    ensures SkipWhile(s, i, p) == j
    decreases j - i
  {
    if i < j {
      SkipWhileRun(s, i + 1, j, p);
    }
  }

  /** The value of a run of hexadecimal digits, most significant first. */
  function HexNumber(s: string): nat
    requires AllHex(s)
  {
    if |s| == 0 then 0 else 16 * HexNumber(s[..|s| - 1]) + HexDigitValue(s[|s| - 1])
  }

  /**
   * `parseInt(s, 16)`: skip leading white space, take an optional sign and an
   * optional `0x`/`0X` prefix, then as many hex digits as follow; `None` is NaN,
   * the result when no digit follows.
   */
  function ParseIntHex(s: string): (r: Option<int>)
    ensures r.None? <==>
      var i := SkipWhile(s, 0, IsJsSpace);
      var j := if i < |s| && (s[i] == '-' || s[i] == '+') then i + 1 else i;
      var k := if j + 2 <= |s| && s[j] == '0' && (s[j + 1] == 'x' || s[j + 1] == 'X') then j + 2 else j;
      k == |s| || !IsHexDigit(s[k])
  {
    var i := SkipWhile(s, 0, IsJsSpace);
    var negative := i < |s| && s[i] == '-';
    var j := if i < |s| && (s[i] == '-' || s[i] == '+') then i + 1 else i;
    var k := if j + 2 <= |s| && s[j] == '0' && (s[j + 1] == 'x' || s[j + 1] == 'X') then j + 2 else j;
    var e := SkipWhile(s, k, IsHexDigit);
    if e == k then None
    else
      assert AllHex(s[k..e]) by {
        forall t | 0 <= t < e - k ensures IsHexDigit(s[k..e][t]) {
          assert s[k..e][t] == s[k + t];
        }
      }
      var v: int := HexNumber(s[k..e]);
      Some(if negative then -v else v)
  }

  /** A pair of hex digits parses to its byte value. */
  lemma ParseIntHexPair(s: string)
    requires |s| == 2 && IsHexDigit(s[0]) && IsHexDigit(s[1])
    ensures ParseIntHex(s) == Some(ByteValue(s[0], s[1]))
  {
    assert !IsJsSpace(s[0]) && s[0] != '-' && s[0] != '+' && s[1] != 'x' && s[1] != 'X';
    assert SkipWhile(s, 0, IsJsSpace) == 0;
    assert SkipWhile(s, 0, IsHexDigit) == 2;
    assert s[0..2] == s;
    assert s[..1] == [s[0]] && [s[0]][..0] == [];
    assert HexNumber([s[0]]) == HexDigitValue(s[0]);
  }

  /** A single hex digit parses to its value; an empty string is NaN. */
  lemma ParseIntHexShort(s: string)
    requires |s| <= 1
    ensures |s| == 0 ==> ParseIntHex(s).None?
    ensures |s| == 1 && IsHexDigit(s[0]) ==> ParseIntHex(s) == Some(HexDigitValue(s[0]))
  {
    if |s| == 1 && IsHexDigit(s[0]) {
      assert !IsJsSpace(s[0]) && s[0] != '-' && s[0] != '+';
      assert SkipWhile(s, 0, IsJsSpace) == 0;
      assert SkipWhile(s, 0, IsHexDigit) == 1;
      assert s[0..1] == s && s[..0] == [];
      assert HexNumber(s) == HexDigitValue(s[0]);
    }
  }
}

=== FILE: options.dfy ===
/** The optional value used wherever the source returns `null` or may leave a value absent. */
module Options {

  datatype Option<+T> = None | Some(value: T) {

    /** The wrapped value, or `default` when there is none. */
    function GetOr(default: T): T {
      match this
      case Some(v) => v
      case None => default
    }
  }
}

=== FILE: selection.dfy ===
/**
 * The search shapes shared by the colour-selection code: a left-to-right
 * first-match search, the strict-improvement loop
 *
 *     best := none; bestScore := 0
 *     for each candidate i in order:
 *       if eligible(i) && score(i) > bestScore then best, bestScore := i, score(i)
 *
 * and a stable descending sort (the behaviour `Array.prototype.sort` has had
 * to guarantee since ES2019).
 */
module Selection {
  import opened Options

  /** The least index in [from, n) satisfying `p`: where a left-to-right search stops first. */
  function FirstIndex(n: nat, p: nat -> bool, from: nat): (r: Option<nat>)
    ensures r.Some? ==> from <= r.value < n && p(r.value)
    ensures r.Some? ==> forall j | from <= j < r.value :: !p(j)
    ensures r.None? ==> forall j | from <= j < n :: !p(j)
    decreases n - from
  {
    if from >= n then None
    else if p(from) then Some(from)
    else FirstIndex(n, p, from + 1)
  }

  // ------------------------------------------------------- strict improvement

  /** One candidate of a strict-improvement search: whether it may be chosen, and its score. */
  datatype Entry = Entry(eligible: bool, score: real)

  /** Entry `k` is eligible, scores highest among the eligible entries, and is the first to reach that score. */
  ghost predicate IsFirstMax(es: seq<Entry>, k: nat) {
    && k < |es| && es[k].eligible
    && (forall i | 0 <= i < |es| && es[i].eligible :: es[i].score <= es[k].score)
    && (forall i | 0 <= i < k && es[i].eligible :: es[i].score < es[k].score)
  }

  /** There is at most one first maximum. */
  lemma FirstMaxUnique(es: seq<Entry>, k1: nat, k2: nat)
    requires IsFirstMax(es, k1) && IsFirstMax(es, k2)
    ensures k1 == k2
  {
  }

  /** The loop above, resumed at candidate `i` with `best`/`bestScore` describing the candidates before `i`. */
  function StrictBestFrom(es: seq<Entry>, i: nat, best: Option<nat>, bestScore: real): (r: Option<nat>)
    requires i <= |es|
    requires best.None? ==> bestScore == 0.0 && forall j | 0 <= j < i :: es[j].eligible ==> es[j].score <= 0.0
    requires best.Some? ==> IsFirstMax(es[..i], best.value) && bestScore == es[best.value].score > 0.0
    ensures r.None? ==> forall j | 0 <= j < |es| :: es[j].eligible ==> es[j].score <= 0.0
    ensures r.Some? ==> IsFirstMax(es, r.value) && es[r.value].score > 0.0
    decreases |es| - i
  {
    if i == |es| then
      assert es[..i] == es;
      best
    else
      var prefix, extended := es[..i], es[..i + 1];
      assert forall j | 0 <= j < i :: extended[j] == prefix[j] == es[j];
      if es[i].eligible && es[i].score > bestScore then
        StrictBestFrom(es, i + 1, Some(i), es[i].score)
      else
        StrictBestFrom(es, i + 1, best, bestScore)
  }

  /**
   * The strict-improvement loop from score 0: nothing when no eligible
   * candidate scores above 0, and otherwise the first eligible candidate of
   * maximal score (later candidates that only tie do not replace it).
   */
  function StrictBest(es: seq<Entry>): (r: Option<nat>)
    ensures r.None? <==> forall j | 0 <= j < |es| :: es[j].eligible ==> es[j].score <= 0.0
    ensures r.Some? ==> IsFirstMax(es, r.value) && es[r.value].score > 0.0
  {
    StrictBestFrom(es, 0, None, 0.0)
  }

  // ------------------------------------------------------------- stable sort

  datatype Scored<T> = Scored(item: T, score: real)

  ghost predicate IsSortedDesc<T>(xs: seq<Scored<T>>) {
    forall i, j | 0 <= i < j < |xs| :: xs[i].score >= xs[j].score
  }

  /** Inserts `x` after every element scoring at least as much, so earlier elements stay ahead of later ties. */
  function InsertDesc<T>(sorted: seq<Scored<T>>, x: Scored<T>): (r: seq<Scored<T>>)
    ensures |r| == |sorted| + 1
    ensures multiset(r) == multiset(sorted) + multiset{x}
    ensures r[0] == if |sorted| > 0 && sorted[0].score >= x.score then sorted[0] else x
  {
    if |sorted| == 0 then [x]
    else if sorted[0].score >= x.score then
      assert sorted == [sorted[0]] + sorted[1..];
      [sorted[0]] + InsertDesc(sorted[1..], x)
    else
      [x] + sorted
  }

  /** Inserting into a descending sequence keeps it descending. */
  lemma {:induction false} InsertKeepsSorted<T>(sorted: seq<Scored<T>>, x: Scored<T>)
    requires IsSortedDesc(sorted)
    ensures IsSortedDesc(InsertDesc(sorted, x))
  {
    if |sorted| > 0 && sorted[0].score >= x.score {
      var rest := InsertDesc(sorted[1..], x);
      InsertKeepsSorted(sorted[1..], x);
      var r := [sorted[0]] + rest;
      assert r == InsertDesc(sorted, x);
      forall j | 0 <= j < |rest| ensures rest[j].score <= sorted[0].score {
        assert rest[j] in multiset(rest);
        assert rest[j] in multiset(sorted[1..]) || rest[j] == x;
        if rest[j] != x {
          var m :| 0 <= m < |sorted[1..]| && sorted[1..][m] == rest[j];
          assert sorted[m + 1] == rest[j];
        }
      }
      forall i, j | 0 <= i < j < |r| ensures r[i].score >= r[j].score {
        if i > 0 {
          assert r[i] == rest[i - 1] && r[j] == rest[j - 1];
        }
      }
    }
  }

  /** A stable sort by descending score: insertion sort taking the elements left to right. */
  function SortDesc<T>(xs: seq<Scored<T>>): (r: seq<Scored<T>>)
    ensures |r| == |xs|
    ensures multiset(r) == multiset(xs)
    ensures IsSortedDesc(r)
  {
    if |xs| == 0 then []
    else
      assert xs == xs[..|xs| - 1] + [xs[|xs| - 1]];
      InsertKeepsSorted(SortDesc(xs[..|xs| - 1]), xs[|xs| - 1]);
      InsertDesc(SortDesc(xs[..|xs| - 1]), xs[|xs| - 1])
  }

  /** Every element of a scored sequence, all of them eligible. */
  function AllEligible<T>(xs: seq<Scored<T>>): (es: seq<Entry>)
    ensures |es| == |xs|
    ensures forall i | 0 <= i < |xs| :: es[i] == Entry(true, xs[i].score)
  {
    seq(|xs|, i requires 0 <= i < |xs| => Entry(true, xs[i].score))
  }

  /** The sort puts first the earliest element of maximal score: ties keep their original order. */
  lemma {:induction false} SortHeadIsFirstMax<T>(xs: seq<Scored<T>>) returns (k: nat)
    requires |xs| > 0
    ensures IsFirstMax(AllEligible(xs), k) && SortDesc(xs)[0] == xs[k]
  {
    SortHeadStep(xs);
    if |xs| == 1 {
      k := 0;
    } else {
      var k' := SortHeadIsFirstMax(xs[..|xs| - 1]);
      k := FirstMaxExtend(xs, k');
    }
  }

  /** Extending a scored sequence by one element: the old first maximum stays unless the new element beats it strictly. */
  lemma FirstMaxExtend<T>(xs: seq<Scored<T>>, k': nat) returns (k: nat)
    requires |xs| >= 2 && IsFirstMax(AllEligible(xs[..|xs| - 1]), k')
    ensures k' < |xs| - 1 && k == (if xs[k'].score >= xs[|xs| - 1].score then k' else |xs| - 1)
    ensures IsFirstMax(AllEligible(xs), k)
  {
    var n := |xs|;
    var ps := AllEligible(xs[..n - 1]);
    var es := AllEligible(xs);
    assert forall i | 0 <= i < n - 1 :: ps[i].score == xs[i].score;
    k := if xs[k'].score >= xs[n - 1].score then k' else n - 1;
    forall i | 0 <= i < n ensures es[i].score <= es[k].score && (i < k ==> es[i].score < es[k].score) {
      if i < n - 1 {
        assert ps[i].eligible;
      }
    }
  }

  /** The head of the sort: the head of the sorted prefix, unless the last element beats it strictly. */
  lemma SortHeadStep<T>(xs: seq<Scored<T>>)
    requires |xs| > 0
    ensures var p := xs[..|xs| - 1];
      SortDesc(xs)[0] == if |p| > 0 && SortDesc(p)[0].score >= xs[|xs| - 1].score then SortDesc(p)[0] else xs[|xs| - 1]
  {
    assert SortDesc(xs) == InsertDesc(SortDesc(xs[..|xs| - 1]), xs[|xs| - 1]);
  }

  /** In a descending sequence the first element to reach a bar is the head, or there is none. */
  lemma FirstAtLeastInSorted<T>(xs: seq<Scored<T>>, bar: real)
    requires IsSortedDesc(xs)
    ensures var r := FirstIndex(|xs|, (i: nat) => i < |xs| && xs[i].score >= bar, 0);
      if |xs| > 0 && xs[0].score >= bar then r == Some(0) else r == None
  {
    var p := (i: nat) => i < |xs| && xs[i].score >= bar;
    var r := FirstIndex(|xs|, p, 0);
    if |xs| > 0 && xs[0].score >= bar {
      assert p(0);
    } else {
      forall j | 0 <= j < |xs| ensures !p(j) {
        if j > 0 { assert xs[0].score >= xs[j].score; }
      }
    }
  }

  // ------------------------------------------------------------- randomness

  /** One value of `Math.random()`: a real in [0, 1). */
  type RandomDraw = r: real | 0.0 <= r < 1.0

  /** `Math.floor(Math.random() * n)`: a uniform pick turned into an index. */
  function RandomIndex(draw: RandomDraw, n: nat): (i: nat)
    requires n > 0
    ensures i < n
  {
    var x := draw * n as real;
    assert x < n as real;
    x.Floor
  }

  /** `xs.filter(y => y !== x)`. */
  function Without<T(==)>(xs: seq<T>, x: T): (r: seq<T>)
    ensures forall i | 0 <= i < |r| :: r[i] in xs && r[i] != x
    ensures forall i | 0 <= i < |xs| && xs[i] != x :: xs[i] in r
    ensures |r| <= |xs|
    ensures multiset(r) == multiset(xs)[x := 0]
  {
    if |xs| == 0 then []
    else
      assert xs == [xs[0]] + xs[1..];
      if xs[0] == x then Without(xs[1..], x)
      else [xs[0]] + Without(xs[1..], x)
  }

  /** Filtering one value out of a list that holds two distinct values leaves something. */
  lemma WithoutOfTwoDistinct<T>(xs: seq<T>, x: T, a: T, b: T)
    requires a in xs && b in xs && a != b
    ensures |Without(xs, x)| > 0
  {
    var y := if a != x then a else b;
    var j :| 0 <= j < |xs| && xs[j] == y;
    assert xs[j] in Without(xs, x);
  }

  /** `filter` of a one-element list: kept exactly when it differs from `x`. */
  lemma WithoutSingleton<T>(y: T, x: T)
    ensures Without([y], x) == if y == x then [] else [y]
  {
    assert [y][1..] == [];
  }

  /** `filter` distributes over concatenation, so it keeps the order of the elements it keeps. */
  lemma {:induction false} WithoutConcat<T>(a: seq<T>, b: seq<T>, x: T)
    ensures Without(a + b, x) == Without(a, x) + Without(b, x)
    decreases |a|
  {
    if |a| == 0 {
      assert a + b == b;
    } else {
      assert (a + b)[0] == a[0] && (a + b)[1..] == a[1..] + b;
      WithoutConcat(a[1..], b, x);
    }
  }

  /** Filtering out one value leaves the first element that differs from it at the front. */
  lemma {:induction false} WithoutHead<T>(xs: seq<T>, x: T, i: nat)
    requires i < |xs| && xs[i] != x && forall j | 0 <= j < i :: xs[j] == x
    ensures |Without(xs, x)| > 0 && Without(xs, x)[0] == xs[i]
    decreases i
  {
    if i > 0 {
      WithoutHead(xs[1..], x, i - 1);
    }
  }
}

=== FILE: smart_color_selection.dfy ===
/**
 * The colour-set generator of src/utils/smartColorSelection.ts: the CTA and
 * text colour choosers, the validator, best-of-N generation with its
 * fast-remix fallback, and the CTA-only variation. Every `Math.random()` call
 * becomes a `RandomDraw` argument.
 */
module SmartColorSelection {
  import opened Options
  import opened Selection
  import opened ColorContrast
  import opened ColorData

  // ---------------------------------------------------------------- CTA colour

  /** The primary CTA palette: dark colours on a light background, light colours on a dark one. */
  function PrimaryCtaPalette(isLightBg: bool): seq<string> {
    if isLightBg then DarkCtaColors else LightCtaColors
  }

  /** Each colour's ratio against `bg`, eligible when it reaches `floor`. */
  function ContrastEntries(curve: PowerCurve, colors: seq<string>, bg: string, floor: real): (es: seq<Entry>)
    ensures |es| == |colors|
    ensures forall i | 0 <= i < |colors| ::
      es[i] == Entry(ContrastRatio(curve, colors[i], bg) >= floor, ContrastRatio(curve, colors[i], bg))
  {
    seq(|colors|, i requires 0 <= i < |colors| =>
      var c := ContrastRatio(curve, colors[i], bg);
      Entry(c >= floor, c))
  }

  /** Some colour of the list reaches `floor` against `bg`. */
  ghost predicate SomeReaches(curve: PowerCurve, colors: seq<string>, bg: string, floor: real) {
    exists i | 0 <= i < |colors| :: ContrastRatio(curve, colors[i], bg) >= floor
  }

  /**
   * `selectOptimalCTAColor`: the best primary colour reaching 3.0, else the
   * best mid-tone. The second pass compares with `>` only; a floor of 0 admits
   * every colour exactly as that does, since every ratio is at least 1.
   */
  function SelectOptimalCTAColor(curve: PowerCurve, gradient: string): (cta: string)
    ensures var bg := GetGradientDominantColor(gradient);
      cta in PrimaryCtaPalette(IsLightColor(curve, bg)) || cta in MidCtaColors
  {
    var bg := GetGradientDominantColor(gradient);
    var candidates := PrimaryCtaPalette(IsLightColor(curve, bg));
    match StrictBest(ContrastEntries(curve, candidates, bg, 3.0))
    case Some(k) => candidates[k]
    case None =>
      match StrictBest(ContrastEntries(curve, MidCtaColors, bg, 0.0))
      case Some(k) => MidCtaColors[k]
      // every ratio is at least 1, so some mid-tone always beats the initial 0
      case None => assert false; ""
  }

  /**
   * The two passes of the CTA search: when a primary colour reaches 3.0 the
   * result is the first primary colour of highest ratio; otherwise it is the
   * first mid-tone of highest ratio.
   */
  lemma CtaSelectionSpec(curve: PowerCurve, gradient: string)
    ensures var bg := GetGradientDominantColor(gradient);
      var primary := PrimaryCtaPalette(IsLightColor(curve, bg));
      var cta := SelectOptimalCTAColor(curve, gradient);
      && (SomeReaches(curve, primary, bg, 3.0) ==>
            exists k: nat :: IsFirstMax(ContrastEntries(curve, primary, bg, 3.0), k) && cta == primary[k])
      && (!SomeReaches(curve, primary, bg, 3.0) ==>
            exists k: nat :: IsFirstMax(ContrastEntries(curve, MidCtaColors, bg, 0.0), k) && cta == MidCtaColors[k])
  {
    var bg := GetGradientDominantColor(gradient);
    var primary := PrimaryCtaPalette(IsLightColor(curve, bg));
    var es := ContrastEntries(curve, primary, bg, 3.0);
    var ms := ContrastEntries(curve, MidCtaColors, bg, 0.0);
    if SomeReaches(curve, primary, bg, 3.0) {
      var i :| 0 <= i < |primary| && ContrastRatio(curve, primary[i], bg) >= 3.0;
      assert es[i].eligible && es[i].score > 0.0;
      var k := StrictBest(es).value;
      assert IsFirstMax(es, k);
    } else {
      forall j | 0 <= j < |es| ensures !es[j].eligible { }
      assert StrictBest(es).None?;
      assert ms[0].eligible && ms[0].score > 0.0;
      var k := StrictBest(ms).value;
      assert IsFirstMax(ms, k);
    }
  }

  // --------------------------------------------------------------- text colour

  /** Each candidate tone with its ratio against `bg`, in the chooser's order. */
  function ScoredTones(curve: PowerCurve, bg: string): (xs: seq<Scored<string>>)
    ensures |xs| == |TextTones|
    ensures forall i | 0 <= i < |TextTones| :: xs[i] == Scored(TextTones[i], ContrastRatio(curve, TextTones[i], bg))
  {
    seq(|TextTones|, i requires 0 <= i < |TextTones| => Scored(TextTones[i], ContrastRatio(curve, TextTones[i], bg)))
  }

  /**
   * `selectOptimalTextColor`: sort the tones by descending ratio (stably) and
   * take the first reaching 2.8 for a heading or 3.2 for body text; failing
   * that, white or black by the rule of `GetOptimalTextColor`.
   */
  function SelectOptimalTextColor(curve: PowerCurve, bg: string, isHeading: bool): string {
    var required := if isHeading then 2.8 else 3.2;
    var sorted := SortDesc(ScoredTones(curve, bg));
    match FirstIndex(|sorted|, (i: nat) => i < |sorted| && sorted[i].score >= required, 0)
    case Some(i) => sorted[i].item
    case None => GetOptimalTextColor(curve, bg)
  }

  /**
   * The chooser always returns the first tone of highest ratio, and that ratio
   * is at least 4.5: white and black are both candidates and the better of the
   * two always reaches 4.5, so the white/black fallback is never taken.
   */
  lemma TextColorSpec(curve: PowerCurve, bg: string, isHeading: bool)
    ensures var t := SelectOptimalTextColor(curve, bg, isHeading);
      && (exists k: nat :: IsFirstMax(AllEligible(ScoredTones(curve, bg)), k) && t == TextTones[k])
      && ContrastRatio(curve, t, bg) >= 4.5
  {
    var required := if isHeading then 2.8 else 3.2;
    var xs := ScoredTones(curve, bg);
    var sorted := SortDesc(xs);
    var k := SortHeadIsFirstMax(xs);
    var es := AllEligible(xs);
    OptimalTextMeetsAA(curve, bg);
    var o := GetOptimalTextColor(curve, bg);
    var oi := if o == WhiteHex then 0 else 1;
    assert xs[oi].score == ContrastRatio(curve, o, bg);
    assert es[oi].score <= es[k].score;
    assert sorted[0].score >= required;
    FirstAtLeastInSorted(sorted, required);
    assert SelectOptimalTextColor(curve, bg, isHeading) == sorted[0].item == TextTones[k];
  }

  // ------------------------------------------------------------- one attempt

  /**
   * `generateHarmoniousColorSet`: a gradient picked by `draw`, the CTA and
   * text colours chosen against its dominant colour, and their ratios.
   */
  function GenerateHarmoniousColorSet(curve: PowerCurve, draw: RandomDraw): (cs: ColorSet)
    ensures cs.gradient in Gradients
  {
    var gradient := Gradients[RandomIndex(draw, |Gradients|)];
    var bg := GetGradientDominantColor(gradient);
    var cta := SelectOptimalCTAColor(curve, gradient);
    var text := SelectOptimalTextColor(curve, bg, false);
    var heading := SelectOptimalTextColor(curve, bg, true);
    ColorSet(gradient, cta, text, heading,
      ContrastRatios(
        ContrastRatio(curve, text, bg),
        ContrastRatio(curve, heading, bg),
        ContrastRatio(curve, cta, bg),
        GetOptimalTextColor(curve, cta)))
  }

  /**
   * The colours of one attempt are chosen against the gradient's dominant
   * colour, and the stored ratios are those colours' ratios against it.
   */
  lemma HarmoniousSetSpec(curve: PowerCurve, draw: RandomDraw)
    ensures var cs := GenerateHarmoniousColorSet(curve, draw);
      var bg := GetGradientDominantColor(cs.gradient);
      && cs.ctaColor == SelectOptimalCTAColor(curve, cs.gradient)
      && cs.textColor == SelectOptimalTextColor(curve, bg, false)
      && cs.headingColor == SelectOptimalTextColor(curve, bg, true)
      && cs.contrastRatios.textToBackground == ContrastRatio(curve, cs.textColor, bg)
      && cs.contrastRatios.headingToBackground == ContrastRatio(curve, cs.headingColor, bg)
      && cs.contrastRatios.ctaToBg == ContrastRatio(curve, cs.ctaColor, bg)
      && cs.contrastRatios.ctaTextToCta == GetOptimalTextColor(curve, cs.ctaColor)
  {
  }

  /** What one attempt guarantees: tones and a CTA from the palettes, text and heading ratios of at least 4.5. */
  lemma HarmoniousSetProperties(curve: PowerCurve, draw: RandomDraw)
    ensures var cs := GenerateHarmoniousColorSet(curve, draw);
      var bg := GetGradientDominantColor(cs.gradient);
      && cs.textColor in TextTones && cs.headingColor in TextTones
      && (cs.ctaColor in PrimaryCtaPalette(IsLightColor(curve, bg)) || cs.ctaColor in MidCtaColors)
      && cs.contrastRatios.textToBackground >= 4.5
      && cs.contrastRatios.headingToBackground >= 4.5
  {
    var cs := GenerateHarmoniousColorSet(curve, draw);
    var bg := GetGradientDominantColor(cs.gradient);
    HarmoniousSetSpec(curve, draw);
    TextColorSpec(curve, bg, false);
    TextColorSpec(curve, bg, true);
  }

  // ---------------------------------------------------------------- validator

  /**
   * `validateColorCombination`. The heading is checked only when given and
   * non-empty (the source tests it for truthiness).
   */
  function ValidateColorCombination(curve: PowerCurve, gradient: string, ctaColor: string, textColor: string,
                                    headingColor: Option<string>): bool
  {
    var bg := GetGradientDominantColor(gradient);
    if ContrastRatio(curve, textColor, bg) < 3.0 then false
    else if headingColor.Some? && headingColor.value != "" && ContrastRatio(curve, headingColor.value, bg) < 3.0 then false
    else if ContrastRatio(curve, ctaColor, bg) < 2.5 then false
    else if ContrastRatio(curve, GetOptimalTextColor(curve, ctaColor), ctaColor) < 3.0 then false
    else true
  }

  /** The validator accepts exactly when all four clauses hold. */
  lemma ValidateIff(curve: PowerCurve, gradient: string, ctaColor: string, textColor: string, headingColor: Option<string>)
    ensures var bg := GetGradientDominantColor(gradient);
      ValidateColorCombination(curve, gradient, ctaColor, textColor, headingColor) <==>
        && ContrastRatio(curve, textColor, bg) >= 3.0
        && (headingColor.Some? && headingColor.value != "" ==> ContrastRatio(curve, headingColor.value, bg) >= 3.0)
        && ContrastRatio(curve, ctaColor, bg) >= 2.5
        && ContrastRatio(curve, GetOptimalTextColor(curve, ctaColor), ctaColor) >= 3.0
  {
  }

  /** The fourth clause (text on the CTA button) holds for every CTA colour. */
  lemma CtaTextClauseAlwaysHolds(curve: PowerCurve, ctaColor: string)
    ensures ContrastRatio(curve, GetOptimalTextColor(curve, ctaColor), ctaColor) >= 3.0
  {
    OptimalTextMeetsAA(curve, ctaColor);
  }

  /** `validateColorCombination` applied to a colour set, heading included. */
  predicate IsValidSet(curve: PowerCurve, cs: ColorSet) {
    ValidateColorCombination(curve, cs.gradient, cs.ctaColor, cs.textColor, Some(cs.headingColor))
  }

  /** A generated set is valid exactly when its CTA colour reaches 2.5 against the background: the other three clauses always hold. */
  lemma HarmoniousValidIff(curve: PowerCurve, draw: RandomDraw)
    ensures var cs := GenerateHarmoniousColorSet(curve, draw);
      IsValidSet(curve, cs) <==> cs.contrastRatios.ctaToBg >= 2.5
  {
    var cs := GenerateHarmoniousColorSet(curve, draw);
    HarmoniousSetProperties(curve, draw);
    CtaTextClauseAlwaysHolds(curve, cs.ctaColor);
    ValidateIff(curve, cs.gradient, cs.ctaColor, cs.textColor, Some(cs.headingColor));
  }

  // --------------------------------------------------------------- best of N

  /** The quality score: the sum of the three background ratios. */
  function Score(cs: ColorSet): real {
    cs.contrastRatios.textToBackground + cs.contrastRatios.headingToBackground + cs.contrastRatios.ctaToBg
  }

  /** One attempt as a search entry: eligible when valid, scored by its sum of ratios. */
  function AttemptEntry(curve: PowerCurve, draw: RandomDraw): Entry {
    var cs := GenerateHarmoniousColorSet(curve, draw);
    Entry(IsValidSet(curve, cs), Score(cs))
  }

  /** Attempt `i` draws `draws(i)`. */
  function AttemptEntries(curve: PowerCurve, n: nat, draws: nat -> RandomDraw): (es: seq<Entry>)
    ensures |es| == n
    ensures forall i | 0 <= i < n :: es[i] == AttemptEntry(curve, draws(i))
  {
    seq(n, i requires 0 <= i < n => AttemptEntry(curve, draws(i)))
  }

  /** `generateFastRemixColorSet`: the table entry `draw` picks (a copy, which for values is the entry itself). */
  function GenerateFastRemixColorSet(draw: RandomDraw): (cs: ColorSet)
    ensures cs in FastRemixCombinations
  {
    FastRemixCombinations[RandomIndex(draw, |FastRemixCombinations|)]
  }

  /** The number of loop iterations `for (i = 0; i < attempts; i++)` makes. */
  function AttemptCount(attempts: int): nat {
    if attempts > 0 then attempts else 0
  }

  /**
   * `generateOptimalColorSet`: attempt `i` uses `draws(i)`; the best valid
   * attempt by strictly improving score wins, and when none is valid the
   * fast-remix table is drawn from with the next draw.
   */
  function GenerateOptimalColorSet(curve: PowerCurve, attempts: int, draws: nat -> RandomDraw): (cs: ColorSet)
    ensures || cs == GenerateFastRemixColorSet(draws(AttemptCount(attempts)))
            || exists i: nat :: i < attempts && cs == GenerateHarmoniousColorSet(curve, draws(i))
  {
    var n := AttemptCount(attempts);
    match StrictBest(AttemptEntries(curve, n, draws))
    case Some(k) =>
      assert k < attempts;
      GenerateHarmoniousColorSet(curve, draws(k))
    case None => GenerateFastRemixColorSet(draws(n))
  }

  /** Every generated set scores above 0, so validity alone decides eligibility. */
  lemma HarmoniousScorePositive(curve: PowerCurve, draw: RandomDraw)
    ensures Score(GenerateHarmoniousColorSet(curve, draw)) >= 3.0
  {
  }

  /**
   * The first outcome of best-of-N: when some attempt validates, the result is
   * a valid attempt of maximal score, the first to reach it.
   */
  lemma OptimalColorSetWhenSomeValid(curve: PowerCurve, attempts: int, draws: nat -> RandomDraw, i: nat)
    requires i < attempts && IsValidSet(curve, GenerateHarmoniousColorSet(curve, draws(i)))
    ensures var es := AttemptEntries(curve, AttemptCount(attempts), draws);
      exists k: nat :: && IsFirstMax(es, k)
                       && GenerateOptimalColorSet(curve, attempts, draws) == GenerateHarmoniousColorSet(curve, draws(k))
  {
    var es := AttemptEntries(curve, AttemptCount(attempts), draws);
    HarmoniousScorePositive(curve, draws(i));
    assert es[i].eligible && es[i].score > 0.0;
    var k := StrictBest(es).value;
    assert IsFirstMax(es, k);
  }

  /** The winner of best-of-N, when there is one, passes the validator. */
  lemma OptimalColorSetWinnerIsValid(curve: PowerCurve, attempts: int, draws: nat -> RandomDraw, k: nat)
    requires IsFirstMax(AttemptEntries(curve, AttemptCount(attempts), draws), k)
    ensures IsValidSet(curve, GenerateHarmoniousColorSet(curve, draws(k)))
  {
    assert AttemptEntries(curve, AttemptCount(attempts), draws)[k] == AttemptEntry(curve, draws(k));
  }

  /**
   * The second outcome: when no attempt validates, in particular when
   * `attempts <= 0`, the result is the fast-remix entry of the next draw.
   */
  lemma OptimalColorSetWhenNoneValid(curve: PowerCurve, attempts: int, draws: nat -> RandomDraw)
    requires forall i: nat | i < attempts :: !IsValidSet(curve, GenerateHarmoniousColorSet(curve, draws(i)))
    ensures GenerateOptimalColorSet(curve, attempts, draws) == GenerateFastRemixColorSet(draws(AttemptCount(attempts)))
  {
    var es := AttemptEntries(curve, AttemptCount(attempts), draws);
    forall j | 0 <= j < |es| ensures !es[j].eligible {
      assert es[j] == AttemptEntry(curve, draws(j));
    }
  }

  // ---------------------------------------------------------------- variation

  /** The CTA pool of a variation: the primary palette followed by the mid-tones. */
  function CtaPool(isLightBg: bool): (pool: seq<string>)
    ensures MidCtaColors[0] in pool && MidCtaColors[1] in pool && MidCtaColors[0] != MidCtaColors[1]
  {
    PrimaryCtaPalette(isLightBg) + MidCtaColors
  }

  /** The pool without the current CTA colour is never empty. */
  function Alternatives(isLightBg: bool, current: string): (alts: seq<string>)
    ensures |alts| > 0
    ensures forall i | 0 <= i < |alts| :: alts[i] in CtaPool(isLightBg) && alts[i] != current
  {
    var pool := CtaPool(isLightBg);
    WithoutOfTwoDistinct(pool, current, MidCtaColors[0], MidCtaColors[1]);
    Without(pool, current)
  }

  /** The first alternative is the pool's first colour, or its second when the first is the current CTA colour. */
  lemma FirstAlternative(isLightBg: bool, current: string)
    ensures var pool := CtaPool(isLightBg);
      Alternatives(isLightBg, current)[0] == if pool[0] != current then pool[0] else pool[1]
  {
    var pool := CtaPool(isLightBg);
    assert pool[0] != pool[1];
    if pool[0] != current {
      WithoutHead(pool, current, 0);
    } else {
      WithoutHead(pool, current, 1);
    }
  }

  /**
   * The alternative with the strictly best ratio over 3.0 against `bg`, or the
   * first alternative when none reaches 3.0.
   */
  function PickAlternative(curve: PowerCurve, alts: seq<string>, bg: string): (best: string)
    requires |alts| > 0
    ensures best in alts
    ensures SomeReaches(curve, alts, bg, 3.0) ==>
      exists k: nat :: IsFirstMax(ContrastEntries(curve, alts, bg, 3.0), k) && best == alts[k]
    ensures !SomeReaches(curve, alts, bg, 3.0) ==> best == alts[0]
  {
    var es := ContrastEntries(curve, alts, bg, 3.0);
    match StrictBest(es)
    case Some(k) => alts[k]
    case None =>
      assert !SomeReaches(curve, alts, bg, 3.0) by {
        if i :| 0 <= i < |alts| && ContrastRatio(curve, alts[i], bg) >= 3.0 {
          assert es[i].eligible && es[i].score > 0.0;
        }
      }
      alts[0]
  }

  /**
   * `createColorVariation`: keep the gradient and the text colours with their
   * stored ratios, and swap the CTA colour for the best remaining pool colour
   * reaching 3.0 (the first remaining one if none does).
   */
  function CreateColorVariation(curve: PowerCurve, base: ColorSet): (cs: ColorSet)
    ensures cs.ctaColor != base.ctaColor
    ensures var bg := GetGradientDominantColor(base.gradient);
      cs.ctaColor in CtaPool(IsLightColor(curve, bg))
    ensures cs.gradient == base.gradient
    ensures cs.textColor == base.textColor && cs.headingColor == base.headingColor
    ensures cs.contrastRatios.textToBackground == base.contrastRatios.textToBackground
    ensures cs.contrastRatios.headingToBackground == base.contrastRatios.headingToBackground
    ensures var bg := GetGradientDominantColor(base.gradient);
      cs.contrastRatios.ctaToBg == ContrastRatio(curve, cs.ctaColor, bg)
    ensures cs.contrastRatios.ctaTextToCta == GetOptimalTextColor(curve, cs.ctaColor)
    ensures var bg := GetGradientDominantColor(base.gradient);
      var alts := Alternatives(IsLightColor(curve, bg), base.ctaColor);
      && (SomeReaches(curve, alts, bg, 3.0) ==>
            exists k: nat :: IsFirstMax(ContrastEntries(curve, alts, bg, 3.0), k) && cs.ctaColor == alts[k])
      && (!SomeReaches(curve, alts, bg, 3.0) ==> cs.ctaColor == alts[0])
  {
    var bg := GetGradientDominantColor(base.gradient);
    var alts := Alternatives(IsLightColor(curve, bg), base.ctaColor);
    var best := PickAlternative(curve, alts, bg);
    ColorSet(base.gradient, best, base.textColor, base.headingColor,
      ContrastRatios(
        base.contrastRatios.textToBackground,
        base.contrastRatios.headingToBackground,
        ContrastRatio(curve, best, bg),
        GetOptimalTextColor(curve, best)))
  }
}
